=== FILE: README.md ===
# CHIP-8 interpreter core in Dafny

This project models the CHIP-8 interpreter of `src/chip8.c`. Each instruction
is run as a pure function on one immutable machine record.

The record follows `struct chip8` (`inc/chip8.h:20-41`): sixteen byte
registers `V0`..`VF`, the delay and sound timers, the stack pointer, the
16-bit index register `I`, the 16-bit program counter, 4096 bytes of memory,
a 16-slot return stack, a 17-entry key latch and a 64×32 monochrome screen
(`inc/config.h:21-22`).

The modules follow the source file:

- `Bytes` (`bytes.dfy`) models the C integer widths. `uint8_t` and `uint16_t` are subset types, and `&`, `|`, `^` are defined bit by bit.
- `Machine` (`machine.dfy`) holds the record, its well-formedness predicate, the sizes and the 80-byte font.
- `Memory`, `Stack`, `Keyboard` and `Screen` model the private helpers. This covers the byte and word access, push and pop, the key latch and key-code search, and the sprite XOR blit with wrap-around and collision.
- `Setup` models `chip8_init` and `chip8_load`.
- `Cpu` models `chip8_exec` as `Step(s, rnd, key)`. It fetches the big-endian word at `pc`, advances `pc` by 2, decodes the fields and dispatches once on the top nibble. The C code's three consecutive dispatches never both act on one opcode, so one dispatch gives the same result.
- `CpuProperties` states what `Step` does for every instruction, 00E0 and 00EE included. It is proved against the opcode word found at `pc`.

Two inputs come from outside the machine:

- `rnd` is the low byte of the `rand()` value that `Cxkk` masks.
- `key` is the byte that `chip8_keyboard_wait_event` returns to `Fx0A`.

Every C `assert` that `Step` can reach becomes part of the precondition `Cpu.CanStep`. So does every access the C code leaves unchecked:

- the word fetch needs `pc + 1 < 4096`;
- the sprite needs `I + n <= 4096`;
- the key tests need `Vx < 17`;
- `Fx33`, `Fx55` and `Fx65` need the bytes they touch to lie inside memory;
- the jump and return targets must be at least 0x200;
- a call needs a free stack slot;
- a return needs a non-empty stack.

The model follows the code's own behaviour, not textbook CHIP-8:

- `8xy4` or-s the carry into VF (`VF |= carry`). When there is no carry, a VF that was already set stays set.
- `8xy5` and `8xy7` compare strictly, so equal operands clear VF.
- `8xyE` stores `Vx & 0x80` in VF, so VF is 0 or 128.
- In `8xy4` to `8xy7` and `8xyE` VF is written before `Vx`. When x or y is F, the result therefore reads the new flag. `8xy0` to `8xy3` do not touch VF unless it is the target.
- `00E0` and `00EE` are matched on the whole word. `01E0`, for example, does nothing.
- `Fx55` and `Fx65` leave `I` unchanged.
- `Fx1E` wraps `I` at 16 bits.
- A key code that the search does not find becomes 0xFF, because `-1` is returned through a `uint8_t`.

Several of these depart from the behaviour most CHIP-8 interpreters share, and the model keeps the code's version:

- **8xy4:** most interpreters set `VF := carry`. This code or-s the carry in, so 5 + 10 leaves VF at 0 only when VF was 0 beforehand (`CpuProperties.AddKeepsStaleFlag`), and a carry onto the 0x80 that `8xyE` leaves gives 0x81 (`CpuProperties.StaleHighFlagWithCarry`).
- **8xy5 and 8xy7:** most interpreters set VF when there is no borrow, that is when the minuend is at least the subtrahend. This code compares strictly, so equal operands clear VF (`CpuProperties.Subtract`).
- **8xyE:** most interpreters put the shifted-out bit in VF as 0 or 1. This code stores it as 0 or 0x80 (`CpuProperties.ShiftLeftOne`).
- **Fx0A:** most interpreters re-run the instruction until a key is pressed. This code waits inside the call for one key-down event and always moves on to the next instruction (`CpuProperties.WaitKeyStep`).
- **Load:** the assert `size + 0x200 < 4096` is strict, so a 3584-byte program, which would exactly fill memory, is refused as well (`Setup.Load`).
- **Timers:** `chip8_exec` only moves values into and out of DT and ST. No code in the repository counts them down.

## Model

| member | source | states |
|---|---|---|
| `Bytes.ToByte` | src/chip8.c:177 | a store into `uint8_t` keeps the value modulo 256, and leaves a value already in range unchanged |
| `Bytes.TopBit` | src/chip8.c:232 | `a & 0x80` is 0x80 exactly when the top bit of `a` is set, and 0 otherwise |
| `Bytes.AndOne` | src/chip8.c:224 | `a & 1` is the low bit of `a` |
| `Bytes.OrOneIntoFlag` | src/chip8.c:216 | or-ing a carry of 1 into a 0/1 flag gives 1 |
| `Bytes.OrZeroByte` | src/chip8.c:216 | or-ing a carry of 0 leaves the flag as it was |
| `Bytes.AndByteBelowMask` | src/chip8.c:194 | a value masked with `kk` is never above `kk` |
| `Bytes.OrOne` | src/chip8.c:216 | or-ing in a carry of 1 raises an even flag by one and leaves an odd flag alone |
| `Bytes.BitwiseBit` | src/chip8.c:207-213 | each bit of the bitwise and, or, xor of two numbers is the and, or, xor of that bit of each operand |
| `Bytes.BitsDetermine` | src/chip8.c:207-213 | two values of `w` bits with the same bits are equal, so a bit-by-bit statement fixes the result |
| `Bytes.ByteBits` | src/chip8.c:207-213 | on bytes, bit `k` of the C operators and, or, xor is the and, or, xor of bit `k` of the operands |
| `Bytes.AndOnes` | src/chip8.c:194 | a mask of `w` one bits keeps a `w`-bit value whole |
| `Bytes.AndFullAndEmptyMask` | src/chip8.c:194 | `a & 0xFF` is `a` and `a & 0` is 0 |
| `Memory.MemSet` | src/chip8.c:49-53 | the written address reads back the value; every other byte and the rest of the machine are kept |
| `Memory.MemGetW` | src/chip8.c:61-64 | the word is big-endian: the high byte is at `addr` and the low byte at `addr + 1` |
| `Memory.CopyBytes` | src/chip8.c:45 | the buffer lands at the offset; bytes outside the copied range are kept |
| `Stack.Push` | src/chip8.c:66-70 | the pointer moves up one and the value lands in the new top slot; the other slots and the rest of the machine are kept; the written slot must exist |
| `Stack.Pop` | src/chip8.c:72-76 | the value in the top slot comes back and the pointer drops by one; the empty stack is refused |
| `Stack.PushThenPop` | src/chip8.c:66-76 | a pop after a push returns the pushed value and restores the pointer and the machine, except for the slot written |
| `Stack.PushAssertAdmitsOverrun` | src/chip8.c:68-69 | with `sp == 15` the assert as written passes, yet the slot written is one past the array |
| `Keyboard.Hold` | src/chip8.c:79 | afterwards the key is held; the other keys and the rest of the machine are unchanged |
| `Keyboard.Release` | src/chip8.c:78 | afterwards the key is not held; the other keys and the rest of the machine are unchanged |
| `Keyboard.HoldThenRelease` | src/chip8.c:78-80 | holding a key and then releasing it restores a latch in which the key was not held |
| `Keyboard.KeyboardMap` | src/chip8.c:82-89 | the result is -1 exactly when the code is missing from the table; otherwise it is the first index holding that code |
| `Keyboard.WaitedKey` | src/chip8.c:91-97 | an unmapped code yields 0xFF; a mapped code yields its first index in the table |
| `Screen.Clear` | src/chip8.c:127 | every pixel is off |
| `Screen.SetXY` | src/chip8.c:101-105 | the pixel is lit and no other pixel changes |
| `Screen.DrawRowPixel` | src/chip8.c:118-121 | drawing one sprite row flips exactly the pixels of that screen row under its set bits, with the column wrapping at 64 |
| `Screen.DrawRowCollision` | src/chip8.c:118-120 | one row reports a collision exactly when one of its set bits lands on a lit pixel |
| `Screen.DrawRowsPixel` | src/chip8.c:117-121 | after the first `k` rows, a pixel is flipped exactly when it lies under a set sprite bit, with rows wrapping at 32 |
| `Screen.DrawRowsCollision` | src/chip8.c:116-124 | the first `k` rows report a collision exactly when some set bit among them lands on a lit pixel |
| `Screen.DrawSprite` | src/chip8.c:113-125 | a sprite of at most 32 rows xors its set bits onto the screen with wrap-around on both axes, leaves every other pixel alone, and reports a collision exactly when it lands on a lit pixel |
| `Screen.DrawTwiceRestores` | src/chip8.c:113-125 | drawing the same sprite twice at the same place gives back the original screen |
| `Screen.DrawOnClearedScreen` | src/chip8.c:113-127 | the first draw on a cleared screen has no collision; drawing again collides exactly when the sprite has a set bit |
| `Screen.LitAfterFirstDraw` | src/chip8.c:119-121 | on a cleared screen the pixel under a set sprite bit is lit after one draw |
| `Screen.WrapsAtRightEdge` | src/chip8.c:120-121 | the row `11000000` drawn at column 63 lights columns 63 and 0 but not column 1 |
| `Setup.Init` | src/chip8.c:36-40 | the font is at addresses 0..79 and every other byte is zero; all registers, timers, pointers, stack slots, keys and pixels are zero |
| `Setup.Load` | src/chip8.c:42-47 | the program occupies 0x200 onwards and `pc` is 0x200; everything else is kept; the size must satisfy `size + 0x200 < 4096` |
| `Cpu.Decode` | src/chip8.c:131-136 | the decoded nibbles put back together give the opcode; `kk` is the low byte and `nnn` the low 12 bits |
| `Cpu.Step` | src/chip8.c:129-277 | every instruction keeps the machine well formed, keeps the stack pointer inside the stack and leaves the key latch alone |
| `Cpu.Arith` | src/chip8.c:201-235 | the 8xy_ family returns a register file of sixteen entries |
| `Cpu.ExecDraw` | src/chip8.c:196-198 | Dxyn keeps the machine well formed |
| `Cpu.ExecMisc` | src/chip8.c:236-269 | every Fx__ instruction keeps the machine well formed |
| `Cpu.StoreBcd` | src/chip8.c:256-260 | Fx33 keeps the machine well formed |
| `Cpu.StoreRegisters` | src/chip8.c:261-264 | each of V0..V(count-1) is copied to memory from I onwards; all other bytes and the rest of the machine are kept |
| `Cpu.LoadRegisters` | src/chip8.c:265-268 | V0..V(count-1) receive the bytes from I onwards; the other registers and the rest of the machine are kept |
| `CpuProperties.DecodeParts` | src/chip8.c:132-136 | decoding an opcode built from four nibbles gives back those nibbles and their `kk` and `nnn` |
| `CpuProperties.UnassignedOnlyAdvances` | src/chip8.c:139-277 | an opcode with no case (0nnn other than 00E0/00EE, 8xy8..8xyD, 8xyF, other Exkk and Fxkk) only moves `pc` on by 2 |
| `CpuProperties.StepFrame` | src/chip8.c:129-277 | memory changes only under Fx33 and Fx55; the stack only under 2nnn; the screen only under 00E0 and Dxyn; DT only under Fx15; ST only under Fx18 |
| `CpuProperties.ClearScreenStep` | src/chip8.c:141-144 | 00E0 turns every pixel off and changes nothing else but `pc` |
| `CpuProperties.JumpStep` | src/chip8.c:152-155 | 1nnn is accepted exactly when `nnn >= 0x200`, and then sets `pc` to `nnn` and nothing else |
| `CpuProperties.ReturnStep` | src/chip8.c:145-148 | 00EE is accepted exactly when the stack is not empty and the top address is at least 0x200; it then jumps to that address and drops the stack pointer, changing nothing else |
| `CpuProperties.CallStep` | src/chip8.c:156-160 | 2nnn puts the address of the next instruction in the slot above the stack pointer, raises the pointer and jumps to `nnn`, changing nothing else |
| `CpuProperties.CallThenReturn` | src/chip8.c:145-160 | a call whose target holds 00EE comes back to the instruction after the call; the only change left is the return address in the slot above the caller's |
| `CpuProperties.CallGuard` | src/chip8.c:156-160 | a call is accepted exactly when a stack slot is free and the target is at least 0x200 |
| `CpuProperties.LoadImmediate` | src/chip8.c:173-175 | 6xkk puts `kk` in `Vx`; only `pc` also changes |
| `CpuProperties.SkipIfEqualStep` | src/chip8.c:161-164 | 3xkk moves `pc` on by 4 when `Vx == kk`, else by 2; nothing else changes |
| `CpuProperties.SkipIfNotEqualStep` | src/chip8.c:165-168 | 4xkk moves `pc` on by 4 when `Vx != kk`, else by 2; nothing else changes |
| `CpuProperties.SkipIfRegistersEqualStep` | src/chip8.c:169-172 | 5xyn, for any `n`, moves `pc` on by 4 when `Vx == Vy`, else by 2; nothing else changes |
| `CpuProperties.SkipIfRegistersDifferStep` | src/chip8.c:180-183 | 9xyn, for any `n`, moves `pc` on by 4 when `Vx != Vy`, else by 2; nothing else changes |
| `CpuProperties.AddImmediateStep` | src/chip8.c:176-178 | 7xkk adds `kk` to `Vx` modulo 256 and leaves VF and everything else alone |
| `CpuProperties.SetIndexStep` | src/chip8.c:184-186 | Annn sets `I` to `nnn` |
| `CpuProperties.JumpOffsetStep` | src/chip8.c:188-191 | Bnnn is accepted exactly when `nnn + V0 >= 0x200`, and then jumps there |
| `CpuProperties.RandomStep` | src/chip8.c:192-195 | Cxkk changes only `Vx` (and `pc`); each bit of the new `Vx` is set exactly when it is set in both the random byte and `kk`, so the value is at most `kk`, a mask of 0xFF passes the random byte through and a mask of 0 gives 0 |
| `CpuProperties.ArithStep` | src/chip8.c:201-202 | 8xyn changes only the registers and `pc`, as the family's table says |
| `CpuProperties.ArithFrame` | src/chip8.c:201-235 | 8xy_ writes at most `Vx` and VF; 8xy0..8xy3 leave VF alone unless it is the target; 8xy0 copies `Vy`; the unassigned `n` change nothing |
| `CpuProperties.AddWithCarry` | src/chip8.c:215-218 | for registers below F: the new `Vx` plus 256 times the carry is the true sum; with no carry VF keeps its old value; with a carry VF is or-ed with 1, so an even VF goes up by one and an odd VF stays; for a 0/1 VF the new VF is 1 exactly when there was a carry or VF was already 1 |
| `CpuProperties.AddCarryExample` | src/chip8.c:215-218 | 250 + 10 with VF clear gives 4 and VF 1 |
| `CpuProperties.StaleHighFlagWithCarry` | src/chip8.c:215-218 | 200 + 100 with VF left at 0x80 gives `Vx` 44 and VF 0x81, not 1 |
| `CpuProperties.AddKeepsStaleFlag` | src/chip8.c:216 | 5 + 10 with VF already 1 gives 15, and VF stays 1 |
| `CpuProperties.Subtract` | src/chip8.c:219-222 | 8xy5 sets VF exactly when `Vx > Vy` strictly, and leaves the difference modulo 256 in `Vx` |
| `CpuProperties.SubtractReversed` | src/chip8.c:227-230 | 8xy7 sets VF exactly when `Vx < Vy` strictly, and leaves `Vy - Vx` modulo 256 in `Vx` |
| `CpuProperties.ShiftRightOne` | src/chip8.c:223-226 | 8xy6 leaves the low bit in VF and halves `Vx` |
| `CpuProperties.ShiftRightIntoFlag` | src/chip8.c:223-226 | 8F06 always ends with VF equal to 0 |
| `CpuProperties.ShiftLeftOne` | src/chip8.c:231-234 | 8xyE leaves VF at 0 or 0x80, set exactly when the top bit was, and doubles `Vx` modulo 256 |
| `CpuProperties.BitwiseRegisters` | src/chip8.c:206-214 | for any x and y, each bit of the new `Vx` under 8xy1, 8xy2, 8xy3 is the or, and, xor of that bit of `Vx` and `Vy` |
| `CpuProperties.AddIntoFlag` | src/chip8.c:215-218 | 8Fy4 ends with VF equal to `VF + Vy` modulo 256, plus one when a carry set the low bit of an even VF |
| `CpuProperties.AddIntoFlagExample` | src/chip8.c:215-218 | 8F04 with VF = 200 and V0 = 100 ends with VF = 45 |
| `CpuProperties.AddFlagOperand` | src/chip8.c:215-218 | 8xF4 or-s the carry into VF first, and adds that new VF to `Vx` |
| `CpuProperties.SubtractIntoFlag` | src/chip8.c:219-222 | 8Fy5 ends with VF equal to the 0/1 comparison minus `Vy`, modulo 256 |
| `CpuProperties.SubtractFlagOperand` | src/chip8.c:219-222 | 8xF5 sets VF exactly when `Vx > VF` and then lowers `Vx` by that new flag |
| `CpuProperties.SubtractReversedIntoFlag` | src/chip8.c:227-230 | 8Fy7 ends with VF equal to `Vy` minus the 0/1 comparison |
| `CpuProperties.SubtractReversedFlagOperand` | src/chip8.c:227-230 | 8xF7 sets VF exactly when `Vx < VF` and then puts that new flag minus `Vx`, modulo 256, in `Vx` |
| `CpuProperties.ShiftLeftIntoFlag` | src/chip8.c:231-234 | 8FyE always ends with VF equal to 0 |
| `CpuProperties.FlagOnBothSides` | src/chip8.c:215-230 | 8FF5 and 8FF7 always end with VF at 0, and 8FF4 doubles VF after or-ing in the carry |
| `CpuProperties.DrawStep` | src/chip8.c:196-198 | Dxyn xors the `n` bytes at `I` onto the screen at (`Vx`, `Vy`); VF is 1 exactly on a collision; nothing else changes |
| `CpuProperties.DrawGuard` | src/chip8.c:197 | Dxyn is accepted exactly when the sprite lies inside memory |
| `CpuProperties.SkipIfKeyStep` | src/chip8.c:271-273 | Ex9E moves `pc` on by 4 when key `Vx` is held, else by 2 |
| `CpuProperties.SkipIfNotKeyStep` | src/chip8.c:274-276 | ExA1 moves `pc` on by 2 when key `Vx` is held, else by 4 |
| `CpuProperties.KeyGuard` | src/chip8.c:271-275 | each key test, Ex9E and ExA1, is accepted exactly when `Vx` indexes the 17-entry latch |
| `CpuProperties.TimerSteps` | src/chip8.c:238-249 | Fx07 copies DT into `Vx`, and Fx15 and Fx18 copy `Vx` into DT and ST |
| `CpuProperties.WaitKeyStep` | src/chip8.c:241-243 | Fx0A stores the waited key in `Vx` and moves on |
| `CpuProperties.AddToIndexStep` | src/chip8.c:250-252 | Fx1E adds `Vx` to `I`, dropping a carry out of 16 bits |
| `CpuProperties.FontGlyphStep` | src/chip8.c:253-255 | Fx29 sets `I` to `5 * Vx` for every `Vx` and changes nothing else; when `Vx` is a hex digit and the font is in place, the five bytes at the new `I` are that digit's glyph |
| `CpuProperties.BcdStep` | src/chip8.c:256-260 | Fx33 writes three digits (at most 2, 9, 9) whose decimal value is `Vx`; no other byte changes |
| `CpuProperties.StoreRegistersStep` | src/chip8.c:261-264 | Fx55 copies V0..Vx to memory from `I` onwards; `I` and all other bytes are unchanged |
| `CpuProperties.LoadRegistersStep` | src/chip8.c:265-268 | Fx65 fills V0..Vx from memory at `I`; `I` and the other registers are unchanged |
| `CpuProperties.StoreThenLoad` | src/chip8.c:261-268 | storing the first `k` registers and loading them back restores them, whatever the registers held in between |
| `CpuProperties.StoreThenLoadSteps` | src/chip8.c:261-268 | Fx55 followed later by Fx65 with the same `I` and `x` gives back V0..Vx |
| `CpuProperties.FirstInstruction` | src/chip8.c:36-47 | a freshly initialised machine loaded with the program `60 12` holds 0x12 in V0 after one step, with `pc` at 0x202 |

## Left out

- `src/main.c` is an SDL window demo that never calls the interpreter. It is pure I/O.
- `chip8_keyboard_wait_event`'s SDL event loop is not modelled. It is replaced by the `key` parameter of `Step`. Its undefined return when `SDL_WaitEvent` fails is not modelled either. `Keyboard.WaitedKey` covers what it returns for one key-down event.
- `srand(time(NULL))` and `rand()` are not modelled. `Step` takes the random byte as a parameter.
- The SDL key-code values in `keymap` are not modelled. The table is an abstract sequence of 16 codes. The narrowing of the SDL key code to `char` before the search is left to the caller, which passes the narrowed code.
- Timer decay is not modelled, because no code in the repository decrements DT or ST.
- Drawing the screen into a window is out of scope.
- The function bodies in `inc/chip8.h` are not modelled. They are stale duplicates of the `src/chip8.c` functions, and only the struct layout is taken from that header.
- `Cpu.CanStep`: states that fail a C assert or read outside an array are excluded, not modelled. The C program would abort or read arbitrary bytes there.
- `Screen.DrawSprite`: the pixel and collision characterisation is proved only for sprites of at most 32 rows. A taller sprite wraps onto itself, so one pixel can be flipped twice. `Dxyn` never draws more than 15 rows; `chip8_screen_draw_sprite` itself accepts up to 255, which is drawn but not characterised.
- `Cpu.Step`: its own contract states only the invariants every instruction keeps: well-formedness, the stack pointer bound and the untouched key latch. What each instruction does is stated by the `CpuProperties` lemmas, at least one per instruction.
- `Cpu.Arith`: its contract states only that the register file still has sixteen entries. What each 8xy_ instruction does, including the cases where x or y is F, is stated by the `CpuProperties` lemmas on `Arith`.
- `Cpu.ExecDraw`: its contract states only well-formedness; what the instruction does is stated by the `CpuProperties` lemmas on `Step`.
- `Cpu.ExecMisc`: its contract states only well-formedness; what the instruction does is stated by the `CpuProperties` lemmas on `Step`.
- `Cpu.StoreBcd`: its contract states only well-formedness; what the instruction does is stated by the `CpuProperties` lemmas on `Step`.
- `chip8_mem_get`, `chip8_screen_is_set` and `chip8_keyboard_is_held` are modelled as `Memory.MemGet`, `Screen.IsSet` and `Keyboard.IsHeld`. Each is a plain read with its bound as precondition, so there is no separate contract.
- `Cpu.ExecSystem` (src/chip8.c:141-149) and `Cpu.ExecKeys` (src/chip8.c:271-277) are the parts of `Cpu.Step` for 0nnn and Exkk and have no contract of their own. `CpuProperties.ClearScreenStep`, `ReturnStep` and `UnassignedOnlyAdvances` state what 0nnn does, and `SkipIfKeyStep`, `SkipIfNotKeyStep` and `KeyGuard` state what Exkk does.

## Findings

| source | as written | input that shows it | evidently intended | confidence | as-written member | corrected member |
|---|---|---|---|---|---|---|
| src/chip8.c:68-69 | `assert(c->sp < 0x10)` followed by `c->stack[++c->sp] = val` | `sp == 15`: the assert passes and the store writes `stack[16]` of a 16-slot array | refuse the push unless `sp + 1 < 16` | high; not executed | `Stack.PushAssertAdmitsOverrun` | `Stack.Push` |

=== FILE: bytes.dfy ===
/** C's fixed-width integers and the bitwise operators the interpreter uses.

    Dafny integers are unbounded, so `uint8_t` and `uint16_t` are written as
    subset types, a store into a narrower type is an explicit reduction, and
    `&`, `|`, `^` are defined bit by bit, least significant bit first. */
module Bytes {

  type byte = x: int | 0 <= x < 0x100
  type word = x: int | 0 <= x < 0x1_0000

  function Pow2(k: nat): (p: nat)
    ensures p >= 1
  {
    if k == 0 then 1 else 2 * Pow2(k - 1)
  }

  datatype BitOp = And | Or | Xor

  function ApplyBit(op: BitOp, p: bool, q: bool): bool {
    match op
    case And => p && q
    case Or => p || q
    case Xor => p != q
  }

  /** The low `w` bits of `a op b`, computed one bit at a time. */
  function Bitwise(op: BitOp, a: nat, b: nat, w: nat): (r: nat)
    ensures r < Pow2(w)
  {
    if w == 0 then 0
    else 2 * Bitwise(op, a / 2, b / 2, w - 1) + (if ApplyBit(op, a % 2 == 1, b % 2 == 1) then 1 else 0)
  }

  /** The C `&` on two `uint8_t` operands. */
  function BitAnd(a: byte, b: byte): byte {
    Bitwise(And, a, b, 8)
  }

  /** The C `|` on two `uint8_t` operands. */
  function BitOr(a: byte, b: byte): byte {
    Bitwise(Or, a, b, 8)
  }

  /** The C `^` on two `uint8_t` operands. */
  function BitXor(a: byte, b: byte): byte {
    Bitwise(Xor, a, b, 8)
  }

  /** The C `>>` on a `uint8_t`: `k` halvings. */
  function ShiftRight(a: byte, k: nat): byte {
    if k == 0 then a else ShiftRight(a / 2, k - 1)
  }

  /** Storing an `int` into a `uint8_t`: reduction modulo 256. */
  function ToByte(n: int): (b: byte)
    ensures (b - n) % 0x100 == 0
    ensures 0 <= n < 0x100 ==> b == n
  {
    n % 0x100
  }

  /** Or-ing in zero bits leaves a value unchanged. */
  lemma {:induction false} OrZero(a: nat, w: nat)
    requires a < Pow2(w)
    ensures Bitwise(Or, a, 0, w) == a
  {
    if w > 0 {
      OrZero(a / 2, w - 1);
    }
  }

  /** And-ing with zero gives zero. */
  lemma {:induction false} AndZero(a: nat, w: nat)
    ensures Bitwise(And, a, 0, w) == 0
  {
    if w > 0 {
      AndZero(a / 2, w - 1);
    }
  }

  /** A mask keeps no bit the mask does not have: the result is at most the mask. */
  lemma {:induction false} AndBelowMask(a: nat, b: nat, w: nat)
    requires b < Pow2(w)
    ensures Bitwise(And, a, b, w) <= b
  {
    if w > 0 {
      AndBelowMask(a / 2, b / 2, w - 1);
    }
  }

  /** The `& 0x80` of the shift-left instruction: either 0 or 0x80, and 0x80
      exactly when the top bit is set. */
  lemma TopBit(a: byte)
    ensures BitAnd(a, 0x80) == (if a >= 0x80 then 0x80 else 0)
  {
    var a1 := a / 2;
    var a2 := a1 / 2;
    var a3 := a2 / 2;
    var a4 := a3 / 2;
    var a5 := a4 / 2;
    var a6 := a5 / 2;
    var a7 := a6 / 2;
    assert a7 == (if a >= 0x80 then 1 else 0);
    assert Bitwise(And, a, 0x80, 8) == 2 * Bitwise(And, a1, 0x40, 7);
    assert Bitwise(And, a1, 0x40, 7) == 2 * Bitwise(And, a2, 0x20, 6);
    assert Bitwise(And, a2, 0x20, 6) == 2 * Bitwise(And, a3, 0x10, 5);
    assert Bitwise(And, a3, 0x10, 5) == 2 * Bitwise(And, a4, 0x08, 4);
    assert Bitwise(And, a4, 0x08, 4) == 2 * Bitwise(And, a5, 0x04, 3);
    assert Bitwise(And, a5, 0x04, 3) == 2 * Bitwise(And, a6, 0x02, 2);
    assert Bitwise(And, a6, 0x02, 2) == 2 * Bitwise(And, a7, 0x01, 1);
    assert Bitwise(And, a7, 0x01, 1) == a7 % 2;
  }

  /** The `| 0` of the add instruction leaves the operand alone. */
  lemma OrZeroByte(a: byte)
    ensures BitOr(a, 0) == a
  {
    assert Pow2(8) == 0x100;
    OrZero(a, 8);
  }

  /** A byte masked with `m` is at most `m`. */
  lemma AndByteBelowMask(a: byte, m: byte)
    ensures BitAnd(a, m) <= m
  {
    assert Pow2(8) == 0x100;
    AndBelowMask(a, m, 8);
  }

  /** The `& 1` of the shift-right instruction keeps the low bit. */
  lemma AndOne(a: byte)
    ensures BitAnd(a, 1) == a % 2
  {
    assert Bitwise(And, a, 1, 8) == 2 * Bitwise(And, a / 2, 0, 7) + a % 2;
    AndZero(a / 2, 7);
  }

  /** Or-ing a carry of 1 into a 0/1 flag gives 1. */
  lemma OrOneIntoFlag(a: byte)
    requires a <= 1
    ensures BitOr(a, 1) == 1
  {
    assert Bitwise(Or, a, 1, 8) == 2 * Bitwise(Or, 0, 0, 7) + 1;
    assert Pow2(7) == 0x80;
    OrZero(0, 7);
  }

  /** Or-ing in a 1 sets the low bit: an even value goes up by one, an odd
      value stays. */
  lemma OrOne(a: byte)
    ensures BitOr(a, 1) == a + (if a % 2 == 0 then 1 else 0)
  {
    assert Bitwise(Or, a, 1, 8) == 2 * Bitwise(Or, a / 2, 0, 7) + 1;
    assert Pow2(7) == 0x80;
    OrZero(a / 2, 7);
  }

  /** Bit `k` of `a`, counting from the least significant. */
  predicate Bit(a: nat, k: nat) {
    if k == 0 then a % 2 == 1 else Bit(a / 2, k - 1)
  }

  /** Each bit of `a op b` is `op` applied to the same bit of `a` and of `b`. */
  lemma {:induction false} BitwiseBit(op: BitOp, a: nat, b: nat, w: nat, k: nat)
    requires k < w
    ensures Bit(Bitwise(op, a, b, w), k) == ApplyBit(op, Bit(a, k), Bit(b, k))
  {
    var r := Bitwise(op, a, b, w);
    assert r / 2 == Bitwise(op, a / 2, b / 2, w - 1);
    if k > 0 {
      BitwiseBit(op, a / 2, b / 2, w - 1, k - 1);
    }
  }

  /** Two numbers below `2^w` with the same low `w` bits are equal. */
  lemma {:induction false} BitsDetermine(a: nat, b: nat, w: nat)
    requires a < Pow2(w) && b < Pow2(w)
    requires forall k :: 0 <= k < w ==> Bit(a, k) == Bit(b, k)
    ensures a == b
  {
    if w > 0 {
      forall k | 0 <= k < w - 1
        ensures Bit(a / 2, k) == Bit(b / 2, k)
      {
        assert Bit(a, k + 1) == Bit(b, k + 1);
      }
      BitsDetermine(a / 2, b / 2, w - 1);
      assert Bit(a, 0) == Bit(b, 0);
    }
  }

  /** The byte operators, bit by bit. */
  lemma ByteBits(a: byte, b: byte, k: nat)
    requires k < 8
    ensures Bit(BitAnd(a, b), k) == (Bit(a, k) && Bit(b, k))
    ensures Bit(BitOr(a, b), k) == (Bit(a, k) || Bit(b, k))
    ensures Bit(BitXor(a, b), k) == (Bit(a, k) != Bit(b, k))
  {
    BitwiseBit(And, a, b, 8, k);
    BitwiseBit(Or, a, b, 8, k);
    BitwiseBit(Xor, a, b, 8, k);
  }

  /** A mask of `w` one bits keeps a `w`-bit value whole. */
  lemma {:induction false} AndOnes(a: nat, w: nat)
    requires a < Pow2(w)
    ensures Bitwise(And, a, Pow2(w) - 1, w) == a
  {
    if w > 0 {
      assert Pow2(w) == 2 * Pow2(w - 1);
      assert (Pow2(w) - 1) / 2 == Pow2(w - 1) - 1 && (Pow2(w) - 1) % 2 == 1;
      AndOnes(a / 2, w - 1);
    }
  }

  /** `a & 0xFF` is `a`, and `a & 0` is 0. */
  lemma AndFullAndEmptyMask(a: byte)
    ensures BitAnd(a, 0xFF) == a && BitAnd(a, 0) == 0
  {
    assert Pow2(8) == 0x100;
    AndOnes(a, 8);
    AndZero(a, 8);
  }
}

=== FILE: cpu.dfy ===
/** `chip8_exec`: one fetch/decode/execute step of the interpreter.

    The C function fetches the big-endian word at `pc`, advances `pc` by 2,
    and then runs three dispatches one after the other: a `switch` on the
    whole opcode (00E0, 00EE), a `switch` on the top nibble (families 1-7,
    9-D), and an `if` chain for families 8, F and E. Every opcode reaches at
    most one of them, so the model dispatches once on the top nibble.

    Two inputs come from outside the machine: `rnd` is the low byte of the
    `rand()` value the Cxkk instruction masks, and `key` is the byte
    `chip8_keyboard_wait_event` returns to the Fx0A instruction. The C
    asserts, and the bounds of the accesses the C code leaves unchecked,
    are the precondition `CanStep`. */
module Cpu {
  import opened Bytes
  import opened Machine
  import opened Memory
  import opened Stack
  import opened Keyboard
  import opened Screen

  /** The fields of an instruction word: `o` the top nibble, `x` and `y`
      register indices, `n` the low nibble, `kk` the low byte, `nnn` the
      low 12 bits. */
  datatype Instr = Instr(op: word, o: nat, x: nat, y: nat, n: nat, kk: byte, nnn: nat)

  /** The masks and shifts of `chip8_exec`; the fields put back together
      give the opcode. */
  function Decode(op: word): (ins: Instr)
    ensures ins.op == op
    ensures ins.o < 16 && ins.x < 16 && ins.y < 16 && ins.n < 16 && ins.nnn < 0x1000
    ensures op == ins.o * 0x1000 + ins.x * 0x100 + ins.y * 0x10 + ins.n
    ensures ins.kk == ins.y * 0x10 + ins.n && ins.nnn == ins.x * 0x100 + ins.kk
  {
    var nnn := op % 0x1000;
    var kk := nnn % 0x100;
    Instr(op, op / 0x1000, nnn / 0x100, kk / 0x10, kk % 0x10, kk, nnn)
  }

  /** The instruction word at the program counter. */
  function Fetch(s: Chip8): word
    requires Valid(s) && s.pc + 1 < MemSize
  {
    MemGetW(s, s.pc)
  }

  /** What the C code needs of the state to execute the next instruction
      without failing an assert or accessing outside an array. */
  predicate CanStep(s: Chip8) {
    && Valid(s)
    && s.pc + 1 < MemSize
    && var ins := Decode(Fetch(s));
       && (ins.op == 0x00EE ==> 0 < s.sp < StackSize && s.stack[s.sp] >= ProgramStart)
       && (ins.o == 0x1 ==> ins.nnn >= ProgramStart)
       && (ins.o == 0x2 ==> s.sp + 1 < StackSize && ins.nnn >= ProgramStart)
       && (ins.o == 0xB ==> ins.nnn + s.v[0] >= ProgramStart)
       && (ins.o == 0xD ==> s.i + ins.n <= MemSize)
       && (ins.o == 0xE && (ins.kk == 0x9E || ins.kk == 0xA1) ==> s.v[ins.x] < KeyCount)
       && (ins.o == 0xF && ins.kk == 0x33 ==> s.i + 2 < MemSize)
       && (ins.o == 0xF && (ins.kk == 0x55 || ins.kk == 0x65) ==> s.i + ins.x < MemSize)
  }

  /** One instruction. `s.pc + 2` cannot wrap 16 bits, as `pc + 1` indexes memory. */
  function Step(s: Chip8, rnd: byte, key: byte): (r: Chip8)
    requires CanStep(s)
    ensures Valid(r)
    ensures s.sp < StackSize ==> r.sp < StackSize
    ensures r.keyboard == s.keyboard
  {
    var ins := Decode(Fetch(s));
    var t := s.(pc := s.pc + 2);
    match ins.o
    case 0x0 => ExecSystem(t, ins)
    case 0x1 => t.(pc := ins.nnn)
    case 0x2 => Push(t, t.pc).(pc := ins.nnn)
    case 0x3 => SkipIf(t, t.v[ins.x] == ins.kk)
    case 0x4 => SkipIf(t, t.v[ins.x] != ins.kk)
    case 0x5 => SkipIf(t, t.v[ins.x] == t.v[ins.y])
    case 0x6 => t.(v := t.v[ins.x := ins.kk])
    case 0x7 => t.(v := t.v[ins.x := ToByte((t.v[ins.x] as int) + ins.kk)])
    case 0x8 => t.(v := Arith(t.v, ins.x, ins.y, ins.n))
    case 0x9 => SkipIf(t, t.v[ins.x] != t.v[ins.y])
    case 0xA => t.(i := ins.nnn)
    case 0xB => t.(pc := ins.nnn + t.v[0])
    case 0xC => t.(v := t.v[ins.x := BitAnd(rnd, ins.kk)])
    case 0xD => ExecDraw(t, ins)
    case 0xE => ExecKeys(t, ins)
    case _ => ExecMisc(t, ins, key)
  }

  /** The extra `pc += 2` of the skip instructions. */
  function SkipIf(t: Chip8, cond: bool): Chip8
    requires t.pc <= MemSize
  {
    if cond then t.(pc := t.pc + 2) else t
  }

  /** 00E0 clears the screen; 00EE pops the return address into `pc`;
      every other 0nnn does nothing. */
  function ExecSystem(t: Chip8, ins: Instr): Chip8
    requires Valid(t) && (ins.op == 0x00EE ==> 0 < t.sp < StackSize)
  {
    if ins.op == 0x00E0 then t.(screen := Clear())
    else if ins.op == 0x00EE then
      var (popped, ret) := Pop(t);
      popped.(pc := ret)
    else t
  }

  /** The 8xy_ family. 8xy0 to 8xy3 write VF only when it is
      the target `v[x]`. In 8xy4 to 8xy7 and
      8xyE, VF is written before `v[x]`, so with x or y equal to F the new
      VF is the operand. 8xy4 or-s the carry into VF;
      8xy5 and 8xy7 compare strictly; 8xyE stores `v[x] & 0x80`. Other
      values of `n` do nothing. */
  function Arith(v: seq<byte>, x: nat, y: nat, n: nat): (w: seq<byte>)
    requires |v| == RegisterCount && x < 16 && y < 16
    ensures |w| == RegisterCount
  {
    match n
    case 0x0 => v[x := v[y]]
    case 0x1 => v[x := BitOr(v[x], v[y])]
    case 0x2 => v[x := BitAnd(v[x], v[y])]
    case 0x3 => v[x := BitXor(v[x], v[y])]
    case 0x4 =>
      var f := v[VF := BitOr(v[VF], if (v[x] as int) + v[y] > 255 then 1 else 0)];
      f[x := ToByte((f[x] as int) + f[y])]
    case 0x5 =>
      var f := v[VF := if v[x] > v[y] then 1 else 0];
      f[x := ToByte((f[x] as int) - f[y])]
    case 0x6 =>
      var f := v[VF := BitAnd(v[x], 1)];
      f[x := f[x] / 2]
    case 0x7 =>
      var f := v[VF := if v[x] < v[y] then 1 else 0];
      f[x := ToByte((f[y] as int) - f[x])]
    case 0xE =>
      var f := v[VF := BitAnd(v[x], 0x80)];
      f[x := ToByte((f[x] as int) * 2)]
    case _ => v
  }

  /** Dxyn: draw the `n` bytes at `I` at `(v[x], v[y])`; VF is the collision flag. */
  function ExecDraw(t: Chip8, ins: Instr): (r: Chip8)
    requires Valid(t) && ins.x < 16 && ins.y < 16 && ins.n < 16 && t.i + ins.n <= MemSize
    ensures Valid(r)
  {
    var d := DrawSprite(t.screen, t.v[ins.x], t.v[ins.y], t.memory[t.i .. t.i + ins.n]);
    t.(screen := d.screen, v := t.v[VF := if d.collision then 1 else 0])
  }

  /** Ex9E skips when key `v[x]` is held, ExA1 when it is not; other Exkk do nothing. */
  function ExecKeys(t: Chip8, ins: Instr): Chip8
    requires Valid(t) && ins.x < 16 && t.pc <= MemSize
    requires ins.kk == 0x9E || ins.kk == 0xA1 ==> t.v[ins.x] < KeyCount
  {
    if ins.kk == 0x9E then SkipIf(t, IsHeld(t, t.v[ins.x]))
    else if ins.kk == 0xA1 then SkipIf(t, !IsHeld(t, t.v[ins.x]))
    else t
  }

  /** The Fxkk family; unlisted values of `kk` do nothing. */
  function ExecMisc(t: Chip8, ins: Instr, key: byte): (r: Chip8)
    requires Valid(t) && ins.x < 16
    requires ins.kk == 0x33 ==> t.i + 2 < MemSize
    requires ins.kk == 0x55 || ins.kk == 0x65 ==> t.i + ins.x < MemSize
    ensures Valid(r)
  {
    var x := ins.x;
    match ins.kk
    case 0x07 => t.(v := t.v[x := t.dt])
    case 0x0A => t.(v := t.v[x := key])
    case 0x15 => t.(dt := t.v[x])
    case 0x18 => t.(st := t.v[x])
    case 0x1E => t.(i := ((t.i as int) + t.v[x]) % 0x1_0000)
    case 0x29 => t.(i := (t.v[x] as int) * 5)
    case 0x33 => StoreBcd(t, x)
    case 0x55 => StoreRegisters(t, x + 1)
    case 0x65 => LoadRegisters(t, x + 1)
    case _ => t
  }

  /** Fx33: the hundreds, tens and units digits of `v[x]` at `I`, `I+1`, `I+2`. */
  function StoreBcd(t: Chip8, x: nat): (r: Chip8)
    requires Valid(t) && x < 16 && t.i + 2 < MemSize
    ensures Valid(r)
  {
    var val := t.v[x];
    var t1 := MemSet(t, t.i, val / 100);
    var t2 := MemSet(t1, t.i + 1, (val % 100) / 10);
    MemSet(t2, t.i + 2, val % 10)
  }

  /** Fx55: the loop `for (i = 0; i <= x; ++i) mem[I + i] = v[i]`, here over
      the first `count` registers. */
  function StoreRegisters(c: Chip8, count: nat): (r: Chip8)
    requires Valid(c) && count <= RegisterCount && c.i + count <= MemSize
    ensures Valid(r)
    ensures forall j :: 0 <= j < count ==> r.memory[c.i + j] == c.v[j]
    ensures forall a :: 0 <= a < MemSize && !(c.i <= a < c.i + count) ==> r.memory[a] == c.memory[a]
    ensures r.(memory := c.memory) == c
    decreases count
  {
    if count == 0 then c
    else
      var r := StoreRegisters(c, count - 1);
      MemSet(r, r.i + count - 1, r.v[count - 1])
  }

  /** Fx65: the loop `for (i = 0; i <= x; ++i) v[i] = mem[I + i]`, here over
      the first `count` registers. */
  function LoadRegisters(c: Chip8, count: nat): (r: Chip8)
    requires Valid(c) && count <= RegisterCount && c.i + count <= MemSize
    ensures Valid(r)
    ensures forall j :: 0 <= j < count ==> r.v[j] == c.memory[c.i + j]
    ensures forall j :: count <= j < RegisterCount ==> r.v[j] == c.v[j]
    ensures r.(v := c.v) == c
    decreases count
  {
    if count == 0 then c
    else
      var r := LoadRegisters(c, count - 1);
      r.(v := r.v[count - 1 := MemGet(r, r.i + count - 1)])
  }
}

=== FILE: cpu_properties.dfy ===
/** What one `Step` does, instruction by instruction, stated against the
    opcode word found at the program counter. */
module CpuProperties {
  import opened Bytes
  import opened Machine
  import opened Screen
  import opened Setup
  import opened Cpu

  /** The word at `pc` of a well-formed state is `op`. */
  predicate Fetches(s: Chip8, op: word) {
    Valid(s) && s.pc + 1 < MemSize && Fetch(s) == op
  }

  /** Decoding is the inverse of putting four nibbles together. */
  lemma DecodeParts(o: nat, x: nat, y: nat, n: nat)
    requires o < 16 && x < 16 && y < 16 && n < 16
    ensures var ins := Decode(o * 0x1000 + x * 0x100 + y * 0x10 + n);
      && ins.o == o && ins.x == x && ins.y == y && ins.n == n
      && ins.kk == y * 0x10 + n && ins.nnn == x * 0x100 + y * 0x10 + n
  {
    var ins := Decode(o * 0x1000 + x * 0x100 + y * 0x10 + n);
    assert ins.o * 0x1000 + ins.x * 0x100 + ins.y * 0x10 + ins.n == o * 0x1000 + x * 0x100 + y * 0x10 + n;
  }

  /** 6xkk loads `kk` into `Vx`; nothing else but `pc` changes. */
  lemma LoadImmediate(s: Chip8, x: nat, kk: byte, rnd: byte, key: byte)
    requires x < 16 && Fetches(s, 0x6000 + x * 0x100 + kk)
    ensures CanStep(s)
    ensures Step(s, rnd, key) == s.(pc := s.pc + 2, v := s.v[x := kk])
  {
    DecodeParts(6, x, kk / 0x10, kk % 0x10);
  }

  /** An opcode written as a family nibble and a 12-bit address. */
  lemma DecodeAddress(o: nat, nnn: nat)
    requires o < 16 && nnn < 0x1000
    ensures var ins := Decode(o * 0x1000 + nnn); ins.o == o && ins.nnn == nnn
  {
    DecodeParts(o, nnn / 0x100, nnn / 0x10 % 0x10, nnn % 0x10);
  }

  /** An opcode written as a family nibble, a register and a byte. */
  lemma DecodeImmediate(o: nat, x: nat, kk: byte)
    requires o < 16 && x < 16
    ensures var ins := Decode(o * 0x1000 + x * 0x100 + kk); ins.o == o && ins.x == x && ins.kk == kk
  {
    DecodeParts(o, x, kk / 0x10, kk % 0x10);
  }

  /** Opcodes the interpreter has no case for. */
  predicate Unassigned(op: word) {
    var ins := Decode(op);
    || (ins.o == 0x0 && op != 0x00E0 && op != 0x00EE)
    || (ins.o == 0x8 && 0x8 <= ins.n && ins.n != 0xE)
    || (ins.o == 0xE && ins.kk != 0x9E && ins.kk != 0xA1)
    || (ins.o == 0xF && ins.kk != 0x07 && ins.kk != 0x0A && ins.kk != 0x15 && ins.kk != 0x18
                     && ins.kk != 0x1E && ins.kk != 0x29 && ins.kk != 0x33 && ins.kk != 0x55 && ins.kk != 0x65)
  }

  /** An unassigned opcode is skipped over: only `pc` moves, by 2. */
  lemma UnassignedOnlyAdvances(s: Chip8, rnd: byte, key: byte)
    requires Valid(s) && s.pc + 1 < MemSize && Unassigned(Fetch(s))
    ensures CanStep(s)
    ensures Step(s, rnd, key) == s.(pc := s.pc + 2)
  {
  }

  /** Whatever the instruction, the parts of the machine it is not about
      stay as they were: memory changes only under Fx33 and Fx55, the stack
      only under 2nnn, the screen only under 00E0 and Dxyn, and each timer
      only under its own Fx15 or Fx18. */
  lemma StepFrame(s: Chip8, rnd: byte, key: byte)
    requires CanStep(s)
    ensures var ins := Decode(Fetch(s)); var r := Step(s, rnd, key);
      && (!(ins.o == 0xF && (ins.kk == 0x33 || ins.kk == 0x55)) ==> r.memory == s.memory)
      && (ins.o != 0x2 ==> r.stack == s.stack)
      && (!(ins.op == 0x00E0 || ins.o == 0xD) ==> r.screen == s.screen)
      && (!(ins.o == 0xF && ins.kk == 0x15) ==> r.dt == s.dt)
      && (!(ins.o == 0xF && ins.kk == 0x18) ==> r.st == s.st)
  {
    var ins := Decode(Fetch(s));
    var t := s.(pc := s.pc + 2);
    if ins.o == 0xF && (ins.kk == 0x55 || ins.kk == 0x65) {
      assert StoreRegisters(t, ins.x + 1).(memory := t.memory) == t;
      assert LoadRegisters(t, ins.x + 1).(v := t.v) == t;
    }
  }

  /** 00E0 turns every pixel off and changes nothing else. */
  lemma ClearScreenStep(s: Chip8, rnd: byte, key: byte)
    requires Fetches(s, 0x00E0)
    ensures CanStep(s)
    ensures var r := Step(s, rnd, key);
      && r == s.(pc := s.pc + 2, screen := r.screen)
      && forall row, col :: 0 <= row < ScreenHeight && 0 <= col < ScreenWidth ==> !r.screen[row][col]
  {
    DecodeAddress(0, 0xE0);
  }

  /** 1nnn jumps to `nnn`, and the interpreter refuses a target below the
      program area. */
  lemma JumpStep(s: Chip8, nnn: nat, rnd: byte, key: byte)
    requires nnn < 0x1000 && Fetches(s, 0x1000 + nnn)
    ensures CanStep(s) <==> nnn >= ProgramStart
    ensures CanStep(s) ==> Step(s, rnd, key) == s.(pc := nnn)
  {
    DecodeAddress(1, nnn);
  }

  /** 00EE is accepted exactly when the stack is not empty and the return
      address lies in the program area; it then jumps to the top address
      and drops the stack pointer, leaving the slot's contents. */
  lemma ReturnStep(s: Chip8, rnd: byte, key: byte)
    requires Fetches(s, 0x00EE)
    ensures CanStep(s) <==> 0 < s.sp < StackSize && s.stack[s.sp] >= ProgramStart
    ensures CanStep(s) ==> Step(s, rnd, key) == s.(pc := s.stack[s.sp], sp := s.sp - 1)
  {
    DecodeAddress(0, 0xEE);
  }

  /** 2nnn pushes the address of the next instruction into the slot above
      the stack pointer and jumps to `nnn`. */
  lemma CallStep(s: Chip8, nnn: nat, rnd: byte, key: byte)
    requires nnn < 0x1000 && Fetches(s, 0x2000 + nnn)
    requires s.sp + 1 < StackSize && nnn >= ProgramStart
    ensures CanStep(s)
    ensures Step(s, rnd, key) == s.(pc := nnn, sp := s.sp + 1, stack := s.stack[s.sp + 1 := s.pc + 2])
  {
    DecodeAddress(2, nnn);
  }

  /** 2nnn followed by the 00EE found at `nnn` comes back to the
      instruction after the call; the only trace left is the return
      address in the stack slot above the caller's. */
  lemma CallThenReturn(s: Chip8, nnn: nat, rnd: byte, key: byte)
    requires ProgramStart <= nnn && nnn + 1 < MemSize
    requires Fetches(s, 0x2000 + nnn) && s.sp + 1 < StackSize && s.pc + 2 >= ProgramStart
    requires s.memory[nnn] == 0x00 && s.memory[nnn + 1] == 0xEE
    ensures CanStep(s)
    ensures var c := Step(s, rnd, key);
      && c.pc == nnn && c.sp == s.sp + 1 && c.stack[c.sp] == s.pc + 2
      && CanStep(c)
      && Step(c, rnd, key) == s.(pc := s.pc + 2, stack := s.stack[s.sp + 1 := s.pc + 2])
  {
    DecodeAddress(2, nnn);
    var c := Step(s, rnd, key);
    assert Fetch(c) == 0x00EE;
    DecodeAddress(0, 0xEE);
  }

  /** A call refuses a full stack and a target below the program area. */
  lemma CallGuard(s: Chip8, nnn: nat)
    requires nnn < 0x1000 && Fetches(s, 0x2000 + nnn)
    ensures CanStep(s) <==> s.sp + 1 < StackSize && nnn >= ProgramStart
  {
    DecodeAddress(2, nnn);
  }

  /** 3xkk skips the next instruction when `Vx == kk`. */
  lemma SkipIfEqualStep(s: Chip8, x: nat, kk: byte, rnd: byte, key: byte)
    requires x < 16 && Fetches(s, 0x3000 + x * 0x100 + kk)
    ensures CanStep(s)
    ensures Step(s, rnd, key) == s.(pc := s.pc + if s.v[x] == kk then 4 else 2)
  {
    DecodeImmediate(3, x, kk);
  }

  /** 4xkk skips the next instruction when `Vx != kk`. */
  lemma SkipIfNotEqualStep(s: Chip8, x: nat, kk: byte, rnd: byte, key: byte)
    requires x < 16 && Fetches(s, 0x4000 + x * 0x100 + kk)
    ensures CanStep(s)
    ensures Step(s, rnd, key) == s.(pc := s.pc + if s.v[x] != kk then 4 else 2)
  {
    DecodeImmediate(4, x, kk);
  }

  /** 5xyn skips when `Vx == Vy`, whatever the low nibble. */
  lemma SkipIfRegistersEqualStep(s: Chip8, x: nat, y: nat, n: nat, rnd: byte, key: byte)
    requires x < 16 && y < 16 && n < 16 && Fetches(s, 0x5000 + x * 0x100 + y * 0x10 + n)
    ensures CanStep(s)
    ensures Step(s, rnd, key) == s.(pc := s.pc + if s.v[x] == s.v[y] then 4 else 2)
  {
    DecodeParts(5, x, y, n);
  }

  /** 9xyn skips when `Vx != Vy`, whatever the low nibble. */
  lemma SkipIfRegistersDifferStep(s: Chip8, x: nat, y: nat, n: nat, rnd: byte, key: byte)
    requires x < 16 && y < 16 && n < 16 && Fetches(s, 0x9000 + x * 0x100 + y * 0x10 + n)
    ensures CanStep(s)
    ensures Step(s, rnd, key) == s.(pc := s.pc + if s.v[x] != s.v[y] then 4 else 2)
  {
    DecodeParts(9, x, y, n);
  }

  /** 7xkk adds `kk` to `Vx` modulo 256 and leaves VF alone (unless x is F). */
  lemma AddImmediateStep(s: Chip8, x: nat, kk: byte, rnd: byte, key: byte)
    requires x < 16 && Fetches(s, 0x7000 + x * 0x100 + kk)
    ensures CanStep(s)
    ensures var r := Step(s, rnd, key);
      && r == s.(pc := s.pc + 2, v := s.v[x := r.v[x]])
      && r.v[x] == (s.v[x] + kk) % 0x100
  {
    DecodeImmediate(7, x, kk);
  }

  /** Annn points I at `nnn`. */
  lemma SetIndexStep(s: Chip8, nnn: nat, rnd: byte, key: byte)
    requires nnn < 0x1000 && Fetches(s, 0xA000 + nnn)
    ensures CanStep(s)
    ensures Step(s, rnd, key) == s.(pc := s.pc + 2, i := nnn)
  {
    DecodeAddress(0xA, nnn);
  }

  /** Bnnn jumps to `nnn + V0`, refused below the program area. */
  lemma JumpOffsetStep(s: Chip8, nnn: nat, rnd: byte, key: byte)
    requires nnn < 0x1000 && Fetches(s, 0xB000 + nnn)
    ensures CanStep(s) <==> nnn + s.v[0] >= ProgramStart
    ensures CanStep(s) ==> Step(s, rnd, key) == s.(pc := nnn + s.v[0])
  {
    DecodeAddress(0xB, nnn);
  }

  /** Cxkk puts the random byte masked by `kk` in `Vx`: each bit is set
      exactly when it is set in both, so the value never exceeds `kk`, a
      mask of 0xFF passes the random byte through and a mask of 0 gives 0;
      nothing else changes. */
  lemma RandomStep(s: Chip8, x: nat, kk: byte, rnd: byte, key: byte)
    requires x < 16 && Fetches(s, 0xC000 + x * 0x100 + kk)
    ensures CanStep(s)
    ensures var r := Step(s, rnd, key);
      && r == s.(pc := s.pc + 2, v := s.v[x := r.v[x]])
      && (forall k :: 0 <= k < 8 ==> (Bit(r.v[x], k) <==> Bit(rnd, k) && Bit(kk, k)))
      && r.v[x] <= kk
      && (kk == 0xFF ==> r.v[x] == rnd)
      && (kk == 0 ==> r.v[x] == 0)
  {
    DecodeImmediate(0xC, x, kk);
    AndByteBelowMask(rnd, kk);
    AndFullAndEmptyMask(rnd);
    forall k | 0 <= k < 8
      ensures Bit(BitAnd(rnd, kk), k) <==> Bit(rnd, k) && Bit(kk, k)
    {
      ByteBits(rnd, kk, k);
    }
  }

  /** 8xyn runs `Arith` on the registers. */
  lemma ArithStep(s: Chip8, x: nat, y: nat, n: nat, rnd: byte, key: byte)
    requires x < 16 && y < 16 && n < 16 && Fetches(s, 0x8000 + x * 0x100 + y * 0x10 + n)
    ensures CanStep(s)
    ensures Step(s, rnd, key) == s.(pc := s.pc + 2, v := Arith(s.v, x, y, n))
  {
    DecodeParts(8, x, y, n);
    var ins := Decode(Fetch(s));
    assert ins.o == 8 && ins.x == x && ins.y == y && ins.n == n;
    assert CanStep(s);
  }

  /** `Arith` writes at most `Vx` and VF; 8xy0 to 8xy3 leave VF alone
      unless it is the target, and the unassigned 8xyn change nothing. */
  lemma ArithFrame(v: seq<byte>, x: nat, y: nat, n: nat)
    requires |v| == RegisterCount && x < 16 && y < 16
    ensures var w := Arith(v, x, y, n);
      && (forall j :: 0 <= j < RegisterCount && j != x && j != VF ==> w[j] == v[j])
      && (n <= 3 && x != VF ==> w[VF] == v[VF])
      && (n == 0 ==> w[x] == v[y])
      && (8 <= n && n != 0xE ==> w == v)
  {
  }

  /** 8xy4: the low byte of the sum goes to `Vx` and the carry is or-ed
      into VF, so a VF already set stays set when there is no carry. */
  lemma AddWithCarry(v: seq<byte>, x: nat, y: nat)
    requires |v| == RegisterCount && x < VF && y < VF
    ensures var w := Arith(v, x, y, 4); var carry := (v[x] as int) + v[y] > 255;
      && (w[x] as int) + (if carry then 0x100 else 0) == (v[x] as int) + v[y]
      && (!carry ==> w[VF] == v[VF])
      && (carry ==> w[VF] == v[VF] + (if v[VF] % 2 == 0 then 1 else 0))
      && (v[VF] <= 1 ==> (w[VF] == 1 <==> carry || v[VF] == 1))
      && (v[VF] <= 1 ==> w[VF] <= 1)
  {
    OrZeroByte(v[VF]);
    OrOne(v[VF]);
    if v[VF] <= 1 {
      OrOneIntoFlag(v[VF]);
    }
  }

  /** 250 + 10 with VF clear: `Vx` becomes 4 and VF 1. */
  lemma AddCarryExample(v: seq<byte>)
    requires |v| == RegisterCount && v[0] == 250 && v[1] == 10 && v[VF] == 0
    ensures Arith(v, 0, 1, 4)[0] == 4 && Arith(v, 0, 1, 4)[VF] == 1
  {
    AddWithCarry(v, 0, 1);
  }

  /** 200 + 100 with VF still 0x80 from an earlier 8xyE: the carry is
      or-ed in, so VF becomes 0x81 rather than 1. */
  lemma StaleHighFlagWithCarry(v: seq<byte>)
    requires |v| == RegisterCount && v[0] == 200 && v[1] == 100 && v[VF] == 0x80
    ensures Arith(v, 0, 1, 4)[0] == 44 && Arith(v, 0, 1, 4)[VF] == 0x81
  {
    AddWithCarry(v, 0, 1);
  }

  /** 5 + 10 with VF still set from before: no carry, yet VF stays 1. */
  lemma AddKeepsStaleFlag(v: seq<byte>)
    requires |v| == RegisterCount && v[0] == 5 && v[1] == 10 && v[VF] == 1
    ensures Arith(v, 0, 1, 4)[0] == 15 && Arith(v, 0, 1, 4)[VF] == 1
  {
    AddWithCarry(v, 0, 1);
  }

  /** 8xy5: `Vx - Vy` modulo 256, with VF set exactly when `Vx > Vy`
      strictly, so equal operands give 0 and VF 0. */
  lemma Subtract(v: seq<byte>, x: nat, y: nat)
    requires |v| == RegisterCount && x < VF && y < VF
    ensures var w := Arith(v, x, y, 5);
      && (w[VF] == 1 <==> v[x] > v[y]) && w[VF] <= 1
      && w[x] == (v[x] as int) - v[y] + (if v[x] < v[y] then 0x100 else 0)
  {
  }

  /** 8xy7: `Vy - Vx` modulo 256, with VF set exactly when `Vx < Vy` strictly. */
  lemma SubtractReversed(v: seq<byte>, x: nat, y: nat)
    requires |v| == RegisterCount && x < VF && y < VF
    ensures var w := Arith(v, x, y, 7);
      && (w[VF] == 1 <==> v[x] < v[y]) && w[VF] <= 1
      && w[x] == (v[y] as int) - v[x] + (if v[y] < v[x] then 0x100 else 0)
  {
  }

  /** 8xy6: `Vx` halves and VF receives the bit shifted out. */
  lemma ShiftRightOne(v: seq<byte>, x: nat, y: nat)
    requires |v| == RegisterCount && x < VF && y < 16
    ensures var w := Arith(v, x, y, 6); w[VF] == v[x] % 2 && (w[x] as int) * 2 + w[VF] == v[x]
  {
    AndOne(v[x]);
  }

  /** 8F06 halves the flag it has just written, so VF always ends at 0. */
  lemma ShiftRightIntoFlag(v: seq<byte>, y: nat)
    requires |v| == RegisterCount && y < 16
    ensures Arith(v, VF, y, 6)[VF] == 0
  {
    AndOne(v[VF]);
  }

  /** 8xyE: `Vx` doubles modulo 256 and VF receives the bit shifted out as
      its mask value, 0x80, not as 1. */
  lemma ShiftLeftOne(v: seq<byte>, x: nat, y: nat)
    requires |v| == RegisterCount && x < VF && y < 16
    ensures var w := Arith(v, x, y, 0xE);
      && (w[VF] == 0 || w[VF] == 0x80)
      && (w[VF] == 0x80 <==> v[x] >= 0x80)
      && (w[x] as int) + 2 * (w[VF] as int) == 2 * (v[x] as int)
  {
    TopBit(v[x]);
  }

  /** 8xy1, 8xy2, 8xy3: each bit of the new `Vx` is the or, the and, the
      xor of that bit of `Vx` and of `Vy`. VF is not written first here, so
      this holds for every x and y. */
  lemma BitwiseRegisters(v: seq<byte>, x: nat, y: nat)
    requires |v| == RegisterCount && x < 16 && y < 16
    ensures forall k :: 0 <= k < 8 ==>
      && (Bit(Arith(v, x, y, 1)[x], k) <==> Bit(v[x], k) || Bit(v[y], k))
      && (Bit(Arith(v, x, y, 2)[x], k) <==> Bit(v[x], k) && Bit(v[y], k))
      && (Bit(Arith(v, x, y, 3)[x], k) <==> Bit(v[x], k) != Bit(v[y], k))
  {
    forall k | 0 <= k < 8
      ensures && (Bit(Arith(v, x, y, 1)[x], k) <==> Bit(v[x], k) || Bit(v[y], k))
              && (Bit(Arith(v, x, y, 2)[x], k) <==> Bit(v[x], k) && Bit(v[y], k))
              && (Bit(Arith(v, x, y, 3)[x], k) <==> Bit(v[x], k) != Bit(v[y], k))
    {
      ByteBits(v[x], v[y], k);
    }
  }

  /** 8Fy4 with y below F: the carry is or-ed into VF and then the sum
      overwrites it, so VF ends as `VF + Vy` modulo 256, plus one when a
      carry set the low bit of an even VF. */
  lemma AddIntoFlag(v: seq<byte>, y: nat)
    requires |v| == RegisterCount && y < VF
    ensures var carry := (v[VF] as int) + v[y] > 255;
      Arith(v, VF, y, 4)[VF] == ((v[VF] as int) + v[y] + (if carry && v[VF] % 2 == 0 then 1 else 0)) % 0x100
  {
    OrOne(v[VF]);
    OrZeroByte(v[VF]);
  }

  /** 8F04 with VF = 200 and V0 = 100: the carry makes VF 201 before the
      add, so VF ends at 45, not 44. */
  lemma AddIntoFlagExample(v: seq<byte>)
    requires |v| == RegisterCount && v[VF] == 200 && v[0] == 100
    ensures Arith(v, VF, 0, 4)[VF] == 45
  {
    AddIntoFlag(v, 0);
  }

  /** 8xF4 with x below F: the carry is or-ed into VF first, and that new
      VF is what is added to `Vx`. */
  lemma AddFlagOperand(v: seq<byte>, x: nat)
    requires |v| == RegisterCount && x < VF
    ensures var carry := (v[x] as int) + v[VF] > 255;
      var flag := (v[VF] as int) + (if carry && v[VF] % 2 == 0 then 1 else 0);
      var w := Arith(v, x, VF, 4);
      w[VF] == flag && w[x] == ((v[x] as int) + flag) % 0x100
  {
    OrOne(v[VF]);
    OrZeroByte(v[VF]);
  }

  /** 8Fy5 with y below F: VF ends as the 0/1 comparison minus `Vy`,
      modulo 256; the old VF counts only through the comparison. */
  lemma SubtractIntoFlag(v: seq<byte>, y: nat)
    requires |v| == RegisterCount && y < VF
    ensures Arith(v, VF, y, 5)[VF] == ((if v[VF] > v[y] then 1 else 0) - (v[y] as int)) % 0x100
  {
  }

  /** 8xF5 with x below F: `Vx` drops by the flag just computed, not by the
      old VF. */
  lemma SubtractFlagOperand(v: seq<byte>, x: nat)
    requires |v| == RegisterCount && x < VF
    ensures var w := Arith(v, x, VF, 5);
      && (w[VF] == 1 <==> v[x] > v[VF]) && w[VF] <= 1
      && w[x] == (if v[x] > v[VF] then v[x] - 1 else v[x])
  {
  }

  /** 8Fy7 with y below F: VF ends as `Vy` minus the 0/1 comparison. */
  lemma SubtractReversedIntoFlag(v: seq<byte>, y: nat)
    requires |v| == RegisterCount && y < VF
    ensures Arith(v, VF, y, 7)[VF] == (if v[VF] < v[y] then v[y] - 1 else v[y])
  {
  }

  /** 8xF7 with x below F: `Vx` becomes the flag just computed minus `Vx`,
      modulo 256. */
  lemma SubtractReversedFlagOperand(v: seq<byte>, x: nat)
    requires |v| == RegisterCount && x < VF
    ensures var w := Arith(v, x, VF, 7);
      && (w[VF] == 1 <==> v[x] < v[VF]) && w[VF] <= 1
      && w[x] == ((w[VF] as int) - v[x]) % 0x100
  {
  }

  /** 8FyE doubles the 0/0x80 flag it has just written, so VF always ends
      at 0. */
  lemma ShiftLeftIntoFlag(v: seq<byte>, y: nat)
    requires |v| == RegisterCount && y < 16
    ensures Arith(v, VF, y, 0xE)[VF] == 0
  {
    TopBit(v[VF]);
  }

  /** With VF on both sides, 8FF5 and 8FF7 always end with VF at 0, and
      8FF4 doubles VF after or-ing in the carry. */
  lemma FlagOnBothSides(v: seq<byte>)
    requires |v| == RegisterCount
    ensures Arith(v, VF, VF, 5)[VF] == 0 && Arith(v, VF, VF, 7)[VF] == 0
    ensures Arith(v, VF, VF, 4)[VF] ==
      (2 * (v[VF] as int) + (if v[VF] >= 0x80 && v[VF] % 2 == 0 then 2 else 0)) % 0x100
  {
    OrOne(v[VF]);
    OrZeroByte(v[VF]);
  }

  /** Dxyn xors the `n` bytes at I onto the screen at `(Vx, Vy)`; VF is 1
      exactly when a lit pixel is switched off; nothing else changes. */
  lemma DrawStep(s: Chip8, x: nat, y: nat, n: nat, rnd: byte, key: byte)
    requires x < 16 && y < 16 && n < 16 && Fetches(s, 0xD000 + x * 0x100 + y * 0x10 + n)
    requires s.i + n <= MemSize
    ensures CanStep(s)
    ensures var r := Step(s, rnd, key); var spr := s.memory[s.i .. s.i + n];
      && r == s.(pc := s.pc + 2, screen := r.screen, v := s.v[VF := r.v[VF]])
      && (r.v[VF] == 1 <==> Collides(s.screen, s.v[x], s.v[y], spr)) && r.v[VF] <= 1
      && forall row, col :: 0 <= row < ScreenHeight && 0 <= col < ScreenWidth ==>
           r.screen[row][col] == (s.screen[row][col] != Covered(s.v[x], s.v[y], spr, row, col))
  {
    DecodeParts(0xD, x, y, n);
  }

  /** Dxyn refuses a sprite that would be read past the end of memory. */
  lemma DrawGuard(s: Chip8, x: nat, y: nat, n: nat)
    requires x < 16 && y < 16 && n < 16 && Fetches(s, 0xD000 + x * 0x100 + y * 0x10 + n)
    ensures CanStep(s) <==> s.i + n <= MemSize
  {
    DecodeParts(0xD, x, y, n);
  }

  /** Ex9E skips when key `Vx` is held. */
  lemma SkipIfKeyStep(s: Chip8, x: nat, rnd: byte, key: byte)
    requires x < 16 && Fetches(s, 0xE09E + x * 0x100) && s.v[x] < KeyCount
    ensures CanStep(s)
    ensures Step(s, rnd, key) == s.(pc := s.pc + if s.keyboard[s.v[x]] then 4 else 2)
  {
    DecodeImmediate(0xE, x, 0x9E);
  }

  /** ExA1 skips when key `Vx` is not held. */
  lemma SkipIfNotKeyStep(s: Chip8, x: nat, rnd: byte, key: byte)
    requires x < 16 && Fetches(s, 0xE0A1 + x * 0x100) && s.v[x] < KeyCount
    ensures CanStep(s)
    ensures Step(s, rnd, key) == s.(pc := s.pc + if s.keyboard[s.v[x]] then 2 else 4)
  {
    DecodeImmediate(0xE, x, 0xA1);
  }

  /** Both key tests, Ex9E and ExA1, refuse a register value that is not
      a key index. */
  lemma KeyGuard(s: Chip8, x: nat)
    requires x < 16
    ensures Fetches(s, 0xE09E + x * 0x100) ==> (CanStep(s) <==> s.v[x] < KeyCount)
    ensures Fetches(s, 0xE0A1 + x * 0x100) ==> (CanStep(s) <==> s.v[x] < KeyCount)
  {
    DecodeImmediate(0xE, x, 0x9E);
    DecodeImmediate(0xE, x, 0xA1);
  }

  /** Fx07 copies the delay timer into `Vx`; Fx15 and Fx18 copy `Vx` into
      the delay and sound timers. */
  lemma TimerSteps(s: Chip8, x: nat, rnd: byte, key: byte)
    requires x < 16 && Valid(s) && s.pc + 1 < MemSize
    ensures Fetch(s) == 0xF007 + x * 0x100 ==>
      CanStep(s) && Step(s, rnd, key) == s.(pc := s.pc + 2, v := s.v[x := s.dt])
    ensures Fetch(s) == 0xF015 + x * 0x100 ==>
      CanStep(s) && Step(s, rnd, key) == s.(pc := s.pc + 2, dt := s.v[x])
    ensures Fetch(s) == 0xF018 + x * 0x100 ==>
      CanStep(s) && Step(s, rnd, key) == s.(pc := s.pc + 2, st := s.v[x])
  {
    DecodeImmediate(0xF, x, 0x07);
    DecodeImmediate(0xF, x, 0x15);
    DecodeImmediate(0xF, x, 0x18);
  }

  /** Fx0A stores the waited-for key in `Vx` and moves on. */
  lemma WaitKeyStep(s: Chip8, x: nat, rnd: byte, key: byte)
    requires x < 16 && Fetches(s, 0xF00A + x * 0x100)
    ensures CanStep(s)
    ensures Step(s, rnd, key) == s.(pc := s.pc + 2, v := s.v[x := key])
  {
    DecodeImmediate(0xF, x, 0x0A);
  }

  /** Fx1E adds `Vx` to I in 16 bits. */
  lemma AddToIndexStep(s: Chip8, x: nat, rnd: byte, key: byte)
    requires x < 16 && Fetches(s, 0xF01E + x * 0x100)
    ensures CanStep(s)
    ensures var r := Step(s, rnd, key);
      && r == s.(pc := s.pc + 2, i := r.i)
      && (r.i as int) + (if (s.i as int) + s.v[x] >= 0x1_0000 then 0x1_0000 else 0) == (s.i as int) + s.v[x]
  {
    DecodeImmediate(0xF, x, 0x1E);
  }

  /** An Fxkk instruction runs `ExecMisc` on the machine with `pc` moved on. */
  lemma MiscStep(s: Chip8, x: nat, kk: nat, rnd: byte, key: byte)
    requires x < 16 && kk < 0x100 && Fetches(s, 0xF000 + x * 0x100 + kk) && CanStep(s)
    ensures var ins := Decode(Fetch(s));
      && ins.o == 0xF && ins.x == x && ins.kk == kk
      && Step(s, rnd, key) == ExecMisc(s.(pc := s.pc + 2), ins, key)
  {
    DecodeImmediate(0xF, x, kk);
  }

  /** Fx29 sets I to `5 * Vx`, whatever `Vx` holds. When `Vx` is a hex
      digit and the font is in place, the five bytes at the new I are the
      glyph of that digit. */
  lemma FontGlyphStep(s: Chip8, x: nat, rnd: byte, key: byte)
    requires x < 16 && Fetches(s, 0xF029 + x * 0x100)
    ensures CanStep(s)
    ensures var r := Step(s, rnd, key);
      && r == s.(pc := s.pc + 2, i := r.i)
      && r.i == 5 * (s.v[x] as int)
      && (s.v[x] < 16 && s.memory[..|Charset|] == Charset ==>
            r.memory[r.i .. r.i + 5] == Charset[5 * s.v[x] .. 5 * s.v[x] + 5])
  {
    DecodeImmediate(0xF, x, 0x29);
    MiscStep(s, x, 0x29, rnd, key);
    var r := Step(s, rnd, key);
    assert r == s.(pc := s.pc + 2, i := (s.v[x] as int) * 5);
    if s.v[x] < 16 && s.memory[..|Charset|] == Charset {
      forall a | r.i <= a < r.i + 5
        ensures r.memory[a] == Charset[a]
      {
        assert s.memory[..|Charset|][a] == Charset[a];
      }
    }
  }

  /** Fx33 writes the three decimal digits of `Vx` at I, I+1, I+2, most
      significant first, and touches no other byte. */
  lemma BcdStep(s: Chip8, x: nat, rnd: byte, key: byte)
    requires x < 16 && Fetches(s, 0xF033 + x * 0x100) && s.i + 2 < MemSize
    ensures CanStep(s)
    ensures var r := Step(s, rnd, key); var m := r.memory;
      && r == s.(pc := s.pc + 2, memory := m)
      && m[s.i] <= 2 && m[s.i + 1] <= 9 && m[s.i + 2] <= 9
      && 100 * (m[s.i] as int) + 10 * (m[s.i + 1] as int) + m[s.i + 2] == s.v[x]
      && forall a :: 0 <= a < MemSize && !(s.i <= a <= s.i + 2) ==> m[a] == s.memory[a]
  {
    DecodeImmediate(0xF, x, 0x33);
  }

  /** Fx55 copies V0..Vx to memory from I on; I itself is not advanced. */
  lemma StoreRegistersStep(s: Chip8, x: nat, rnd: byte, key: byte)
    requires x < 16 && Fetches(s, 0xF055 + x * 0x100) && s.i + x < MemSize
    ensures CanStep(s)
    ensures var r := Step(s, rnd, key);
      && r == s.(pc := s.pc + 2, memory := r.memory)
      && (forall j :: 0 <= j <= x ==> r.memory[s.i + j] == s.v[j])
      && forall a :: 0 <= a < MemSize && !(s.i <= a <= s.i + x) ==> r.memory[a] == s.memory[a]
  {
    DecodeImmediate(0xF, x, 0x55);
    MiscStep(s, x, 0x55, rnd, key);
    var t := s.(pc := s.pc + 2);
    assert Step(s, rnd, key) == StoreRegisters(t, x + 1);
    assert StoreRegisters(t, x + 1).(memory := t.memory) == t;
  }

  /** Fx65 copies memory from I on into V0..Vx; I itself is not advanced. */
  lemma LoadRegistersStep(s: Chip8, x: nat, rnd: byte, key: byte)
    requires x < 16 && Fetches(s, 0xF065 + x * 0x100) && s.i + x < MemSize
    ensures CanStep(s)
    ensures var r := Step(s, rnd, key);
      && r == s.(pc := s.pc + 2, v := r.v)
      && (forall j :: 0 <= j <= x ==> r.v[j] == s.memory[s.i + j])
      && forall j :: x < j < RegisterCount ==> r.v[j] == s.v[j]
  {
    DecodeImmediate(0xF, x, 0x65);
    MiscStep(s, x, 0x65, rnd, key);
    var t := s.(pc := s.pc + 2);
    assert Step(s, rnd, key) == LoadRegisters(t, x + 1);
    assert LoadRegisters(t, x + 1).(v := t.v) == t;
  }

  /** Storing the first `k` registers and loading them back, with anything
      at all in the registers in between, restores them. */
  lemma StoreThenLoad(c: Chip8, k: nat, junk: seq<byte>)
    requires Valid(c) && k <= RegisterCount && c.i + k <= MemSize && |junk| == RegisterCount
    ensures var back := LoadRegisters(StoreRegisters(c, k).(v := junk), k);
      back.v == c.v[..k] + junk[k..]
  {
    var mid := StoreRegisters(c, k).(v := junk);
    var back := LoadRegisters(mid, k);
    assert mid.i == c.i;
    assert back.v == c.v[..k] + junk[k..];
  }

  /** Fx55 and then, at any later point where I and memory are as Fx55 left
      them, Fx65 with the same x: V0..Vx come back as they were before Fx55. */
  lemma StoreThenLoadSteps(s: Chip8, t: Chip8, x: nat, rnd: byte, key: byte)
    requires x < 16 && Fetches(s, 0xF055 + x * 0x100) && s.i + x < MemSize
    requires Fetches(t, 0xF065 + x * 0x100) && t.i == s.i
    requires CanStep(s) && t.memory == Step(s, rnd, key).memory
    ensures CanStep(t)
    ensures forall j :: 0 <= j <= x ==> Step(t, rnd, key).v[j] == s.v[j]
  {
    StoreRegistersStep(s, x, rnd, key);
    LoadRegistersStep(t, x, rnd, key);
  }

  /** A program whose first instruction is 6012, freshly initialised and
      loaded, puts 0x12 in V0 and moves on to 0x202. */
  lemma FirstInstruction(rnd: byte, key: byte)
    ensures var s := Load(Init(), [0x60, 0x12]);
      && CanStep(s)
      && Step(s, rnd, key).v[0] == 0x12
      && Step(s, rnd, key).pc == 0x202
  {
    var s := Load(Init(), [0x60, 0x12]);
    assert s.memory[0x200 .. 0x202] == [0x60, 0x12];
    assert s.memory[0x200] == 0x60 && s.memory[0x201] == 0x12;
    LoadImmediate(s, 0, 0x12, rnd, key);
  }
}

=== FILE: keyboard.dfy ===
/** The key latch: `chip8_keyboard_hold`, `chip8_keyboard_release`,
    `chip8_keyboard_is_held`, and the key-code search `chip8_keyboard_map`
    with the `uint8_t` conversion `chip8_keyboard_wait_event` applies to
    its result. */
module Keyboard {
  import opened Bytes
  import opened Machine

  /** `chip8_keyboard_is_held`: the index must lie in the 17-entry latch. */
  predicate IsHeld(c: Chip8, k: byte)
    requires Valid(c) && k < KeyCount
  {
    c.keyboard[k]
  }

  /** `chip8_keyboard_hold`: key `k` is held afterwards, nothing else changes. */
  function Hold(c: Chip8, k: int): (r: Chip8)
    requires Valid(c) && 0 <= k < KeyCount
    ensures Valid(r) && IsHeld(r, k)
    ensures forall j :: 0 <= j < KeyCount && j != k ==> r.keyboard[j] == c.keyboard[j]
    ensures r.(keyboard := c.keyboard) == c
  {
    c.(keyboard := c.keyboard[k := true])
  }

  /** `chip8_keyboard_release`: key `k` is not held afterwards, nothing else changes. */
  function Release(c: Chip8, k: int): (r: Chip8)
    requires Valid(c) && 0 <= k < KeyCount
    ensures Valid(r) && !IsHeld(r, k)
    ensures forall j :: 0 <= j < KeyCount && j != k ==> r.keyboard[j] == c.keyboard[j]
    ensures r.(keyboard := c.keyboard) == c
  {
    c.(keyboard := c.keyboard[k := false])
  }

  /** Holding and then releasing a key restores the latch when the key was
      not held before. */
  lemma HoldThenRelease(c: Chip8, k: byte)
    requires Valid(c) && k < KeyCount && !IsHeld(c, k)
    ensures Release(Hold(c, k), k) == c
  {
    assert Release(Hold(c, k), k).keyboard == c.keyboard;
  }

  /** `chip8_keyboard_map`: the index of the first entry of the 16-entry
      table equal to `k`, or -1 when there is none. */
  method KeyboardMap(keymap: seq<int>, k: int) returns (i: int)
    requires |keymap| == 16
    ensures -1 <= i < 16
    ensures i == -1 <==> k !in keymap
    ensures i >= 0 ==> keymap[i] == k && forall j :: 0 <= j < i ==> keymap[j] != k
  {
    i := 0;
    while i < 16
      invariant 0 <= i <= 16
      invariant forall j :: 0 <= j < i ==> keymap[j] != k
    {
      if keymap[i] == k {
        return;
      }
      i := i + 1;
    }
    i := -1;
  }

  /** The value `chip8_keyboard_wait_event` returns for a key-down event with
      code `k`: the result of `chip8_keyboard_map` stored into a `uint8_t`,
      so an unmapped code yields 0xFF. */
  method WaitedKey(keymap: seq<int>, k: int) returns (b: byte)
    requires |keymap| == 16
    ensures k !in keymap ==> b == 0xFF
    ensures k in keymap ==> b < 16 && keymap[b] == k && forall j :: 0 <= j < b ==> keymap[j] != k
  {
    var i := KeyboardMap(keymap, k);
    b := ToByte(i);
  }
}

=== FILE: machine.dfy ===
/** The machine record of the interpreter (`struct chip8`) and the fixed
    geometry it is built on: 4096 bytes of memory, a 16-slot return stack,
    a 17-entry key latch and a 64x32 monochrome screen. */
module Machine {
  import opened Bytes

  const MemSize: nat := 4096
  const StackSize: nat := 16
  const KeyCount: nat := 17
  const RegisterCount: nat := 16
  const ScreenWidth: nat := 64
  const ScreenHeight: nat := 32
  /** Programs are loaded, and start executing, at this address. */
  const ProgramStart: nat := 0x200
  /** Index of the flag register VF. */
  const VF: nat := 0xF

  /** The built-in hexadecimal font: 16 glyphs of 5 rows each, one byte per row. */
  const Charset: seq<byte> := [
    0xF0, 0x90, 0x90, 0x90, 0xF0, 0x20, 0x60, 0x20, 0x20, 0x70, 0xF0, 0x10, 0xF0, 0x80,
    0xF0, 0xF0, 0x10, 0xF0, 0x10, 0xF0, 0x90, 0x90, 0xF0, 0x10, 0x10, 0xF0, 0x80, 0xF0,
    0x10, 0xF0, 0xF0, 0x80, 0xF0, 0x90, 0xF0, 0xF0, 0x10, 0x20, 0x40, 0x40, 0xF0, 0x90,
    0xF0, 0x90, 0xF0, 0xF0, 0x90, 0xF0, 0x10, 0xF0, 0xF0, 0x90, 0xF0, 0x90, 0x90, 0xE0,
    0x90, 0xE0, 0x90, 0xE0, 0xF0, 0x80, 0x80, 0x80, 0xF0, 0xE0, 0x90, 0x90, 0x90, 0xE0,
    0xF0, 0x80, 0xF0, 0x80, 0xF0, 0xF0, 0x80, 0xF0, 0x80, 0x80
  ]

  /** The screen, indexed `screen[row][column]`. The C array holds only the
      values 0 and 1 (it is zeroed, set to 1 or xor-ed with 1), so a
      pixel is a `bool`: `true` is lit. */
  type Grid = seq<seq<bool>>

  predicate IsGrid(g: Grid) {
    |g| == ScreenHeight && forall r :: 0 <= r < |g| ==> |g[r]| == ScreenWidth
  }

  /** One interpreter: registers V0..VF, the two timers, the stack pointer,
      the index register I, the program counter, memory, the return stack,
      the key latch (0 or 1 per key, hence `bool`) and the screen. */
  datatype Chip8 = Chip8(
    v: seq<byte>,
    dt: byte,
    st: byte,
    sp: byte,
    i: word,
    pc: word,
    memory: seq<byte>,
    stack: seq<word>,
    keyboard: seq<bool>,
    screen: Grid)

  /** The array sizes of the C record. */
  predicate Valid(c: Chip8) {
    && |c.v| == RegisterCount
    && |c.memory| == MemSize
    && |c.stack| == StackSize
    && |c.keyboard| == KeyCount
    && IsGrid(c.screen)
  }
}

=== FILE: memory.dfy ===
/** Memory access of the interpreter: `chip8_mem_set`, `chip8_mem_get`, the
    big-endian word fetch `chip8_mem_getw`, and the bulk copy `memcpy` that
    initialisation and loading use. */
module Memory {
  import opened Bytes
  import opened Machine

  /** `chip8_mem_set`: the address must lie inside memory. Only that byte
      of the machine changes. */
  function MemSet(c: Chip8, addr: word, val: byte): (r: Chip8)
    requires Valid(c) && addr < MemSize
    ensures Valid(r)
    ensures MemGet(r, addr) == val
    ensures forall a :: 0 <= a < MemSize && a != addr ==> r.memory[a] == c.memory[a]
    ensures r.(memory := c.memory) == c
  {
    c.(memory := c.memory[addr := val])
  }

  /** `chip8_mem_get`: the address must lie inside memory. */
  function MemGet(c: Chip8, addr: word): byte
    requires Valid(c) && addr < MemSize
  {
    c.memory[addr]
  }

  /** `chip8_mem_getw`: the byte at `addr` is the high half of the word and
      the byte after it the low half. The C code does not check the bound;
      both bytes must lie inside memory. */
  function MemGetW(c: Chip8, addr: word): (w: word)
    requires Valid(c) && addr + 1 < MemSize
    ensures w / 0x100 == MemGet(c, addr) && w % 0x100 == MemGet(c, addr + 1)
  {
    (c.memory[addr] as int) * 0x100 + c.memory[addr + 1]
  }

  /** `memcpy(&mem[offset], buf, |buf|)`: the bytes land at `offset ..
      offset + |buf|` and every other byte is kept. */
  function CopyBytes(mem: seq<byte>, offset: nat, buf: seq<byte>): (m: seq<byte>)
    requires offset + |buf| <= |mem|
    ensures |m| == |mem|
    ensures forall j :: 0 <= j < |buf| ==> m[offset + j] == buf[j]
    ensures forall a :: 0 <= a < |mem| && !(offset <= a < offset + |buf|) ==> m[a] == mem[a]
  {
    mem[..offset] + buf + mem[offset + |buf|..]
  }
}

=== FILE: screen.dfy ===
/** The screen: clearing, single-pixel access and the sprite blit of
    `chip8_screen_draw_sprite`, which xors a sprite onto the screen with
    toroidal wrap-around and reports whether it switched a lit pixel off. */
module Screen {
  import opened Bytes
  import opened Machine

  // Sprite coordinates wrap modulo the screen size: columns modulo 64
  // (ScreenWidth) and rows modulo 32 (ScreenHeight), as in the blit's
  // index expressions.

  /** The screen after a blit, and the collision flag the blit returns. */
  datatype Drawn = Drawn(screen: Grid, collision: bool)

  /** `chip8_screen_clear`: every pixel off. */
  function Clear(): (g: Grid)
    ensures IsGrid(g)
    ensures forall r, c :: 0 <= r < ScreenHeight && 0 <= c < ScreenWidth ==> !g[r][c]
  {
    seq(ScreenHeight, _ => seq(ScreenWidth, _ => false))
  }

  /** `chip8_screen_is_set`: the coordinates must be on the screen. */
  function IsSet(g: Grid, x: byte, y: byte): bool
    requires IsGrid(g) && x < ScreenWidth && y < ScreenHeight
  {
    g[y][x]
  }

  /** `chip8_screen_set_xy`: lights one on-screen pixel and no other. */
  function SetXY(g: Grid, x: byte, y: byte): (r: Grid)
    requires IsGrid(g) && x < ScreenWidth && y < ScreenHeight
    ensures IsGrid(r) && IsSet(r, x, y)
    ensures forall row, col :: 0 <= row < ScreenHeight && 0 <= col < ScreenWidth && (row, col) != (y, x) ==>
      r[row][col] == g[row][col]
  {
    g[y := g[y][x := true]]
  }

  /** Sprite bit `lx` of a sprite row: the test `row & (0x80 >> lx)`, so bit
      0 is the leftmost pixel. */
  predicate SpriteBit(bits: byte, lx: nat)
    requires lx < 8
  {
    BitAnd(bits, ShiftRight(0x80, lx)) != 0
  }

  /** The sprite column a screen column falls under when the sprite is drawn
      at `x`, counting around the screen edge. */
  function ColumnOffset(x: int, col: int): nat {
    (col - x) % 64
  }

  /** The sprite row a screen row falls under when the sprite is drawn at `y`. */
  function RowOffset(y: int, row: int): nat {
    (row - y) % 32
  }

  /** The first `m` columns of sprite row `bits`, drawn at column `x`, cover
      screen column `col`. */
  predicate RowCovers(x: byte, bits: byte, m: nat, col: int)
    requires m <= 8
  {
    ColumnOffset(x, col) < m && SpriteBit(bits, ColumnOffset(x, col))
  }

  /** Sprite `spr` drawn at `(x, y)` has a set bit over pixel `(row, col)`.
      For sprites of at most `ScreenHeight` rows each pixel lies under at
      most one sprite bit, found by counting back from the pixel modulo the
      screen size. */
  predicate Covered(x: byte, y: byte, spr: seq<byte>, row: int, col: int) {
    var ly := RowOffset(y, row);
    ly < |spr| && RowCovers(x, spr[ly], 8, col)
  }

  /** Some set sprite bit lands on a pixel that is lit in `g`. */
  predicate Collides(g: Grid, x: byte, y: byte, spr: seq<byte>)
    requires IsGrid(g)
  {
    exists ly, lx :: 0 <= ly < |spr| && 0 <= lx < 8 && SpriteBit(spr[ly], lx) &&
      g[(ly + y) % 32][(lx + x) % 64]
  }

  /** Counting back from a wrapped coordinate recovers the offset. */
  lemma WrapOffset(off: int, base: int, p: int, n: nat)
    requires n == ScreenWidth || n == ScreenHeight
    requires 0 <= off < n && 0 <= p < n
    ensures (p == (off + base) % n) <==> ((p - base) % n == off)
  {
    if n == ScreenWidth {
      assert n == 64;
    } else {
      assert n == 32;
    }
  }

  /** One step of the blit loop: the pixel's old value is or-ed into the
      collision flag and the pixel is xor-ed with 1. */
  function Toggle(d: Drawn, row: nat, col: nat): (e: Drawn)
    requires IsGrid(d.screen) && row < ScreenHeight && col < ScreenWidth
    ensures IsGrid(e.screen)
    ensures e.screen[row][col] == !d.screen[row][col]
    ensures forall r, c :: 0 <= r < ScreenHeight && 0 <= c < ScreenWidth && (r, c) != (row, col) ==>
      e.screen[r][c] == d.screen[r][c]
    ensures e.collision == (d.collision || d.screen[row][col])
  {
    Drawn(d.screen[row := d.screen[row][col := !d.screen[row][col]]], d.collision || d.screen[row][col])
  }

  /** The inner loop of the blit: columns `0 .. m-1` of sprite row `bits`,
      drawn at column `x` onto screen row `row`. */
  function DrawRow(g: Grid, x: byte, row: nat, bits: byte, m: nat): (d: Drawn)
    requires IsGrid(g) && row < ScreenHeight && m <= 8
    ensures IsGrid(d.screen)
    decreases m
  {
    if m == 0 then Drawn(g, false)
    else
      var d := DrawRow(g, x, row, bits, m - 1);
      if SpriteBit(bits, m - 1) then Toggle(d, row, (m - 1 + x) % 64) else d
  }

  /** After `m` columns, pixel `(r, c)` is flipped iff it lies in row
      `row` under one of the first `m` set sprite bits. */
  lemma {:induction false} DrawRowPixel(g: Grid, x: byte, row: nat, bits: byte, m: nat, r: nat, c: nat)
    requires IsGrid(g) && row < ScreenHeight && m <= 8
    requires r < ScreenHeight && c < ScreenWidth
    ensures DrawRow(g, x, row, bits, m).screen[r][c] == (g[r][c] != (r == row && RowCovers(x, bits, m, c)))
  {
    if m > 0 {
      DrawRowPixel(g, x, row, bits, m - 1, r, c);
      WrapOffset(m - 1, x, c, ScreenWidth);
      if c == (m - 1 + x) % 64 {
        assert ColumnOffset(x, c) == m - 1;
      } else {
        assert ColumnOffset(x, c) != m - 1;
      }
    }
  }

  /** After `m` columns the flag is set iff one of the first `m` set sprite
      bits fell on a lit pixel. */
  lemma {:induction false} DrawRowCollision(g: Grid, x: byte, row: nat, bits: byte, m: nat)
    requires IsGrid(g) && row < ScreenHeight && m <= 8
    ensures DrawRow(g, x, row, bits, m).collision <==>
      exists lx :: 0 <= lx < m && SpriteBit(bits, lx) && g[row][(lx + x) % 64]
  {
    if m > 0 {
      var d := DrawRow(g, x, row, bits, m - 1);
      var col := (m - 1 + x) % 64;
      DrawRowCollision(g, x, row, bits, m - 1);
      DrawRowPixel(g, x, row, bits, m - 1, row, col);
      WrapOffset(m - 1, x, col, ScreenWidth);
      assert ColumnOffset(x, col) == m - 1;
      RowHitsExtend(g, x, row, bits, m, d.collision, DrawRow(g, x, row, bits, m).collision);
    }
  }

  /** A hit among the first `m` columns is one among the first `m-1` or one
      in column `m-1`. */
  lemma RowHitsExtend(g: Grid, x: byte, row: nat, bits: byte, m: nat, dHit: bool, eHit: bool)
    requires IsGrid(g) && row < ScreenHeight && 0 < m <= 8
    requires dHit <==> exists lx :: 0 <= lx < m - 1 && SpriteBit(bits, lx) && g[row][(lx + x) % 64]
    requires eHit == (dHit || (SpriteBit(bits, m - 1) && g[row][(m - 1 + x) % 64]))
    ensures eHit <==> exists lx :: 0 <= lx < m && SpriteBit(bits, lx) && g[row][(lx + x) % 64]
  {
    if exists lx :: 0 <= lx < m && SpriteBit(bits, lx) && g[row][(lx + x) % 64] {
      var lx :| 0 <= lx < m && SpriteBit(bits, lx) && g[row][(lx + x) % 64];
      if lx < m - 1 {
        assert dHit;
      }
    }
  }

  /** The outer loop of the blit: sprite rows `0 .. k-1`, row `ly` landing
      on screen row `(ly + y) mod 32`; the flags of the rows are or-ed. */
  function DrawRows(g: Grid, x: byte, y: byte, spr: seq<byte>, k: nat): (d: Drawn)
    requires IsGrid(g) && k <= |spr|
    ensures IsGrid(d.screen)
    decreases k
  {
    if k == 0 then Drawn(g, false)
    else
      var d := DrawRows(g, x, y, spr, k - 1);
      var e := DrawRow(d.screen, x, (k - 1 + y) % 32, spr[k - 1], 8);
      Drawn(e.screen, d.collision || e.collision)
  }

  /** While the sprite is no taller than the screen, drawing its first `k`
      rows flips pixel `(r, c)` iff one of those rows covers it. */
  lemma {:induction false} DrawRowsPixel(g: Grid, x: byte, y: byte, spr: seq<byte>, k: nat, r: nat, c: nat)
    requires IsGrid(g) && k <= |spr| && k <= ScreenHeight
    requires r < ScreenHeight && c < ScreenWidth
    ensures DrawRows(g, x, y, spr, k).screen[r][c] == (g[r][c] != Covered(x, y, spr[..k], r, c))
  {
    if k > 0 {
      DrawRowsPixel(g, x, y, spr, k - 1, r, c);
      var d := DrawRows(g, x, y, spr, k - 1);
      DrawRowPixel(d.screen, x, (k - 1 + y) % 32, spr[k - 1], 8, r, c);
      CoveredExtend(x, y, spr, k, r, c);
    }
  }

  /** The first `k` rows cover a pixel iff the first `k-1` do or it lies in
      the screen row of row `k-1` under one of that row's set bits; the two
      cases exclude each other. */
  lemma CoveredExtend(x: byte, y: byte, spr: seq<byte>, k: nat, r: nat, c: nat)
    requires 0 < k <= |spr| && k <= ScreenHeight && r < ScreenHeight
    ensures r == (k - 1 + y) % 32 ==>
      Covered(x, y, spr[..k], r, c) == RowCovers(x, spr[k - 1], 8, c) && !Covered(x, y, spr[..k - 1], r, c)
    ensures r != (k - 1 + y) % 32 ==>
      Covered(x, y, spr[..k], r, c) == Covered(x, y, spr[..k - 1], r, c)
  {
    WrapOffset(k - 1, y, r, ScreenHeight);
    var ly := RowOffset(y, r);
    var pre, all := spr[..k - 1], spr[..k];
    if ly < k - 1 {
      assert all[ly] == pre[ly];
    } else if ly == k - 1 {
      assert all[ly] == spr[k - 1];
    }
  }

  /** While the sprite is no taller than the screen, the flag after `k`
      rows says whether a set bit of those rows met a lit pixel of `g`. */
  lemma {:induction false} DrawRowsCollision(g: Grid, x: byte, y: byte, spr: seq<byte>, k: nat)
    requires IsGrid(g) && k <= |spr| && k <= ScreenHeight
    ensures DrawRows(g, x, y, spr, k).collision <==> Collides(g, x, y, spr[..k])
  {
    if k > 0 {
      var d := DrawRows(g, x, y, spr, k - 1);
      var row := (k - 1 + y) % 32;
      var e := DrawRow(d.screen, x, row, spr[k - 1], 8);
      DrawRowsCollision(g, x, y, spr, k - 1);
      LastRowCollision(g, x, y, spr, k, row, spr[k - 1]);
      CollidesExtend(g, x, y, spr, k, row, spr[k - 1], d.collision, e.collision);
    }
  }

  /** Row `k-1` meets the screen row no earlier sprite row reached, so its
      flag compares its bits with `g` itself. */
  lemma LastRowCollision(g: Grid, x: byte, y: byte, spr: seq<byte>, k: nat, row: nat, bits: byte)
    requires IsGrid(g) && 0 < k <= |spr| && k <= ScreenHeight
    requires row == (k - 1 + y) % 32 && bits == spr[k - 1]
    ensures DrawRow(DrawRows(g, x, y, spr, k - 1).screen, x, row, bits, 8).collision <==>
      exists lx :: 0 <= lx < 8 && SpriteBit(bits, lx) && g[row][(lx + x) % 64]
  {
    var d := DrawRows(g, x, y, spr, k - 1);
    forall col | 0 <= col < ScreenWidth
      ensures d.screen[row][col] == g[row][col]
    {
      DrawRowsPixel(g, x, y, spr, k - 1, row, col);
      CoveredExtend(x, y, spr, k, row, col);
    }
    DrawRowCollision(d.screen, x, row, bits, 8);
    SameRowSameHits(d.screen, g, x, row, bits);
  }

  /** Two screens that agree on row `row` give a row the same hits. */
  lemma SameRowSameHits(a: Grid, b: Grid, x: byte, row: nat, bits: byte)
    requires IsGrid(a) && IsGrid(b) && row < ScreenHeight
    requires forall col :: 0 <= col < ScreenWidth ==> a[row][col] == b[row][col]
    ensures (exists lx :: 0 <= lx < 8 && SpriteBit(bits, lx) && a[row][(lx + x) % 64]) <==>
      (exists lx :: 0 <= lx < 8 && SpriteBit(bits, lx) && b[row][(lx + x) % 64])
  {
  }

  /** A collision of the first `k` rows is one of the first `k-1` rows or
      one of row `k-1`. */
  lemma CollidesExtend(g: Grid, x: byte, y: byte, spr: seq<byte>, k: nat, row: nat, bits: byte, dHit: bool, eHit: bool)
    requires IsGrid(g) && 0 < k <= |spr|
    requires row == (k - 1 + y) % 32 && bits == spr[k - 1]
    requires dHit <==> Collides(g, x, y, spr[..k - 1])
    requires eHit <==> exists lx :: 0 <= lx < 8 && SpriteBit(bits, lx) && g[row][(lx + x) % 64]
    ensures (dHit || eHit) <==> Collides(g, x, y, spr[..k])
  {
    var pre, all := spr[..k - 1], spr[..k];
    if Collides(g, x, y, all) {
      var ly, lx :| 0 <= ly < k && 0 <= lx < 8 && SpriteBit(all[ly], lx) && g[(ly + y) % 32][(lx + x) % 64];
      if ly < k - 1 {
        assert pre[ly] == all[ly];
        assert Collides(g, x, y, pre);
      } else {
        assert all[ly] == spr[k - 1];
      }
    }
    if dHit {
      var ly, lx :| 0 <= ly < k - 1 && 0 <= lx < 8 && SpriteBit(pre[ly], lx) && g[(ly + y) % 32][(lx + x) % 64];
      assert all[ly] == pre[ly];
    }
    if eHit {
      var lx :| 0 <= lx < 8 && SpriteBit(bits, lx) && g[row][(lx + x) % 64];
      assert all[k - 1] == spr[k - 1];
    }
  }

  /** `chip8_screen_draw_sprite`: all `n` rows of the sprite (`n` is a
      `uint8_t`). A sprite no taller than the screen flips exactly the
      pixels under its set bits, wrapping at both edges, and reports a
      collision iff one of those pixels was lit. */
  function DrawSprite(g: Grid, x: byte, y: byte, spr: seq<byte>): (d: Drawn)
    requires IsGrid(g) && |spr| < 0x100
    ensures IsGrid(d.screen)
    ensures |spr| <= ScreenHeight ==> forall r, c :: 0 <= r < ScreenHeight && 0 <= c < ScreenWidth ==>
      d.screen[r][c] == (g[r][c] != Covered(x, y, spr, r, c))
    ensures |spr| <= ScreenHeight ==> (d.collision <==> Collides(g, x, y, spr))
  {
    assert spr[..|spr|] == spr;
    if |spr| <= ScreenHeight then
      DrawRowsCollision(g, x, y, spr, |spr|);
      forall r, c | 0 <= r < ScreenHeight && 0 <= c < ScreenWidth
        ensures DrawRows(g, x, y, spr, |spr|).screen[r][c] == (g[r][c] != Covered(x, y, spr, r, c))
      {
        DrawRowsPixel(g, x, y, spr, |spr|, r, c);
      }
      DrawRows(g, x, y, spr, |spr|)
    else
      DrawRows(g, x, y, spr, |spr|)
  }

  /** Some bit of some row of the sprite is set. */
  predicate HasSetBit(spr: seq<byte>) {
    exists ly, lx :: 0 <= ly < |spr| && 0 <= lx < 8 && SpriteBit(spr[ly], lx)
  }

  /** Xor is its own inverse: drawing the same sprite at the same place twice
      gives back the original screen. */
  lemma DrawTwiceRestores(g: Grid, x: byte, y: byte, spr: seq<byte>)
    requires IsGrid(g) && |spr| <= ScreenHeight
    ensures DrawSprite(DrawSprite(g, x, y, spr).screen, x, y, spr).screen == g
  {
    var once := DrawSprite(g, x, y, spr).screen;
    var twice := DrawSprite(once, x, y, spr).screen;
    forall r | 0 <= r < ScreenHeight
      ensures twice[r] == g[r]
    {
      forall c | 0 <= c < ScreenWidth
        ensures twice[r][c] == g[r][c]
      {
        assert once[r][c] == (g[r][c] != Covered(x, y, spr, r, c));
      }
    }
  }

  /** On a cleared screen the first draw of a sprite reports no collision,
      and drawing it again reports one exactly when the sprite has a set bit. */
  lemma DrawOnClearedScreen(x: byte, y: byte, spr: seq<byte>)
    requires |spr| <= ScreenHeight
    ensures !DrawSprite(Clear(), x, y, spr).collision
    ensures DrawSprite(DrawSprite(Clear(), x, y, spr).screen, x, y, spr).collision <==> HasSetBit(spr)
  {
    if HasSetBit(spr) {
      var ly, lx :| 0 <= ly < |spr| && 0 <= lx < 8 && SpriteBit(spr[ly], lx);
      LitAfterFirstDraw(x, y, spr, ly, lx);
    }
  }

  /** On a cleared screen, the pixel under a set sprite bit is lit after one draw. */
  lemma LitAfterFirstDraw(x: byte, y: byte, spr: seq<byte>, ly: nat, lx: nat)
    requires |spr| <= ScreenHeight && ly < |spr| && lx < 8 && SpriteBit(spr[ly], lx)
    ensures DrawSprite(Clear(), x, y, spr).screen[(ly + y) % 32][(lx + x) % 64]
  {
    var r, c := (ly + y) % 32, (lx + x) % 64;
    WrapOffset(ly, y, r, ScreenHeight);
    WrapOffset(lx, x, c, ScreenWidth);
    assert Covered(x, y, spr, r, c);
  }

  /** Wrap-around at the right edge: a sprite row `11000000` drawn at the last
      column lights that column and column 0 of the same row. */
  lemma WrapsAtRightEdge(y: byte)
    ensures var s := DrawSprite(Clear(), 63, y, [0xC0]).screen;
      s[y % 32][63] && s[y % 32][0] && !s[y % 32][1]
  {
    var row := y % 32;
    LeftTwoBits();
    WrapOffset(0, y, row, ScreenHeight);
    assert Covered(63, y, [0xC0], row, 63);
    assert Covered(63, y, [0xC0], row, 0);
    assert !Covered(63, y, [0xC0], row, 1);
  }

  lemma LeftTwoBits()
    ensures SpriteBit(0xC0, 0) && SpriteBit(0xC0, 1) && !SpriteBit(0xC0, 2)
  {
    assert ShiftRight(0x80, 1) == 0x40;
    assert ShiftRight(0x80, 2) == 0x20;
    assert BitAnd(0xC0, 0x80) == 0x80;
    assert BitAnd(0xC0, 0x40) == 0x40;
    assert BitAnd(0xC0, 0x20) == 0;
  }
}

=== FILE: setup.dfy ===
/** Session setup: `chip8_init` clears the whole record and places the font
    at address 0; `chip8_load` copies a program to 0x200 and points the
    program counter at it. */
module Setup {
  import opened Bytes
  import opened Machine
  import opened Memory
  import Screen

  /** The record after `memset(c, 0, sizeof *c)`. */
  function Blank(): (c: Chip8)
    ensures Valid(c)
  {
    Chip8(Zeros(RegisterCount), 0, 0, 0, 0, 0, Zeros(MemSize), seq(StackSize, _ => 0),
          seq(KeyCount, _ => false), Screen.Clear())
  }

  function Zeros(n: nat): (z: seq<byte>)
    ensures |z| == n
  {
    seq(n, _ => 0)
  }

  /** `chip8_init`: memory holds the font at 0 .. 79 and zeros above it;
      registers, timers, pointers, stack, keys and screen are all zero. */
  function Init(): (c: Chip8)
    ensures Valid(c)
    ensures c.memory[..|Charset|] == Charset
    ensures forall a :: |Charset| <= a < MemSize ==> c.memory[a] == 0
    ensures c.pc == 0 && c.i == 0 && c.sp == 0 && c.dt == 0 && c.st == 0
    ensures forall j :: 0 <= j < RegisterCount ==> c.v[j] == 0
    ensures forall j :: 0 <= j < StackSize ==> c.stack[j] == 0
    ensures forall j :: 0 <= j < KeyCount ==> !c.keyboard[j]
    ensures forall r, col :: 0 <= r < ScreenHeight && 0 <= col < ScreenWidth ==> !c.screen[r][col]
  {
    var blank := Blank();
    var c := blank.(memory := CopyBytes(blank.memory, 0, Charset));
    assert c.memory[..|Charset|] == Charset;
    c
  }

  /** `chip8_load`: the C assert demands `size + 0x200 < 4096` (strictly).
      The program occupies `0x200 .. 0x200 + |prog|`, the program counter
      is 0x200, and everything else is kept. */
  function Load(c: Chip8, prog: seq<byte>): (r: Chip8)
    requires Valid(c) && |prog| + ProgramStart < MemSize
    ensures Valid(r)
    ensures r.memory[ProgramStart .. ProgramStart + |prog|] == prog
    ensures forall a :: 0 <= a < MemSize && !(ProgramStart <= a < ProgramStart + |prog|) ==>
      r.memory[a] == c.memory[a]
    ensures r.pc == ProgramStart
    ensures r.(memory := c.memory, pc := c.pc) == c
  {
    var r := c.(memory := CopyBytes(c.memory, ProgramStart, prog), pc := ProgramStart);
    assert r.memory[ProgramStart .. ProgramStart + |prog|] == prog;
    r
  }
}

=== FILE: stack.dfy ===
/** The return stack: `chip8_stack_push` pre-increments the stack pointer
    and then stores, `chip8_stack_pop` reads and then decrements. Slot 0 is
    never written, so the 16-slot array holds at most 15 return addresses. */
module Stack {
  import opened Bytes
  import opened Machine

  /** `chip8_stack_push` writes `stack[++sp]`. The C assert only checks
      `sp < 16`, which still admits `sp == 15` and a write to slot 16, one
      past the array (see `PushAssertAdmitsOverrun`); the model requires the
      written slot to exist. The value lands in the new top slot, the other
      slots and the rest of the machine are kept. */
  function Push(c: Chip8, val: word): (r: Chip8)
    requires Valid(c) && c.sp + 1 < StackSize
    ensures Valid(r)
    ensures r.sp == c.sp + 1 && r.stack[r.sp] == val
    ensures forall j :: 0 <= j < StackSize && j != r.sp ==> r.stack[j] == c.stack[j]
    ensures r.(sp := c.sp, stack := c.stack) == c
  {
    var sp := c.sp + 1;
    c.(sp := sp, stack := c.stack[sp := val])
  }

  /** `chip8_stack_pop` returns `stack[sp--]`, asserting `0 < sp < 16`: the
      top value comes back, the pointer drops by one, nothing else changes. */
  function Pop(c: Chip8): (r: (Chip8, word))
    requires Valid(c) && 0 < c.sp < StackSize
    ensures Valid(r.0)
    ensures r.1 == c.stack[c.sp] && r.0.sp == c.sp - 1
    ensures r.0.(sp := c.sp) == c
  {
    (c.(sp := c.sp - 1), c.stack[c.sp])
  }

  /** A pop right after a push returns the pushed value and restores the
      stack pointer; the only trace left is the value in the slot above. */
  lemma PushThenPop(c: Chip8, val: word)
    requires Valid(c) && c.sp + 1 < StackSize
    ensures Pop(Push(c, val)).1 == val
    ensures Pop(Push(c, val)).0 == c.(stack := c.stack[c.sp + 1 := val])
  {
  }

  /** The condition `chip8_stack_push` asserts, as written. */
  predicate PushAssertAsWritten(c: Chip8) {
    c.sp < 0x10
  }

  /** The slot `stack[++sp]` writes. */
  function PushSlot(c: Chip8): nat {
    c.sp + 1
  }

  /** With `sp == 15` the assert passes, yet the slot written is index 16 of
      a 16-slot array. */
  lemma PushAssertAdmitsOverrun(c: Chip8)
    requires Valid(c) && c.sp == 15
    ensures PushAssertAsWritten(c) && PushSlot(c) >= |c.stack|
  {
  }
}
